=== FILE: README.md ===
# darpi sampling and statistics engine, in Dafny

This project models the Monte Carlo engine of darpi, a small library for
costing project risks. A risk has a cost triple (minimum, most likely,
maximum) and a probability. The engine does the following:

- It turns the triple into a triangular distribution.
- It builds one sample vector of `ITERATIONS` (100000) slots per risk. The
  first `int(ITERATIONS * p)` slots hold draws and the rest hold zeros.
  The vector is then shuffled.
- It sums the vectors of all risks element-wise.
- From the sums it derives:
  - an empirical CDF;
  - a 101-point percentile curve, the PPF;
  - a 40-bin histogram of the nonzero costs;
  - the cost at a chosen percentile.

The engine exists twice:

- `darpi/quantitative/probability.py` is the validated version, modelled in
  module `Quantitative`. It checks argument types and ranges, checks vector
  lengths before summing, and warns when a vector is not `ITERATIONS` long.
  Its PPF moves the top knot to 0.999 and writes the smallest nonzero sample
  into the curve as a lower bound.
- `darpi/probability.py` is the unvalidated version the tests import,
  modelled in module `Probability`. It has none of these checks; its errors
  are the ones Python, numpy and scipy raise by themselves.

The two versions have textually identical empirical CDF and histogram code.
Both use the single definitions in module `Empirical`. Lemmas in
`Probability` relate the two versions: where they agree, and the inputs on
which they part ways.

Modelling choices:

- Floats are exact `real`s.
- A Python argument is a `Scalar`: a number, or any other object (which
  makes a type error).
- Exceptions are the `Error` constructors of a `Result`.
- The warning of the validated `sum_samples` is a returned flag.
- Randomness is passed in: the values `distribution.rvs` returns, and the
  swap choices `np.random.shuffle` makes. The shuffle itself is numpy's
  Fisher-Yates loop.
- numpy's library routines each have their own module:
  - `np.sort` is `Sorting`.
  - `np.interp` is `Interpolation`, with numpy's clamping at both ends.
  - `np.add.reduce` is `Vectors`.
  - `np.histogram` is `Histogram`. It uses numpy's default range and
    equal-width bins.
- `Scenarios` works through the inputs that the test suite and the
  docstrings use.

The PPF knots are `np.linspace(0, 1, n, endpoint=False) + 1 / n`. In exact
arithmetic that is `(i + 1) / n`, the share of the data at or below sorted
position `i`.

## Model

| member | source | states |
|---|---|---|
| Quantitative.GetTriangularDistribution | darpi/quantitative/probability.py:39-45 | A type error exactly when an argument is not a number. A range error, naming the mode and bounds, exactly when `a <= c <= b` fails. A division error exactly when the bounds are equal and the mode lies between them. It succeeds exactly for numbers with `a <= c <= b` and `a < b`. Then the distribution has support `[a, b]` and mode `c`, shape in `[0, 1]` and positive scale. |
| Quantitative.GetSamples | darpi/quantitative/probability.py:69-79 | A type error exactly for a non-number. A range error exactly for a probability outside `[0, 1]`. After these checks, `distribution.rvs` raises scipy's domain error exactly when the distribution cannot be drawn from, even for zero draws. It succeeds exactly for a number in `[0, 1]` and a drawable distribution. Then the vector has `ITERATIONS` entries: the first `int(ITERATIONS * p)` draws plus zeros in the other slots, as a multiset. |
| Risks.ZeroInflated | darpi/quantitative/probability.py:75-77 | Before the shuffle, slot `i < k` holds draw `i` and every other slot holds 0. |
| Risks.Trunc | darpi/quantitative/probability.py:76 | `int()` truncates toward zero: the result lies within one of the argument, on the zero side. |
| Shuffle.Swap | darpi/quantitative/probability.py:78 | Exchanges two entries and leaves every other entry in place. |
| Shuffle.Steps | darpi/quantitative/probability.py:78 | Any run of Fisher-Yates exchange steps keeps the multiset of the vector. |
| Shuffle.Shuffled | darpi/quantitative/probability.py:78 | The shuffled vector is a rearrangement of its input. |
| Quantitative.SamplesZeroCount | darpi/quantitative/probability.py:75-78 | With no zero draw, a vector holds exactly `ITERATIONS - int(ITERATIONS * p)` zeros and `int(ITERATIONS * p)` nonzero entries. |
| Quantitative.FirstMismatch | darpi/quantitative/probability.py:105-109 | Finds the first vector from a position on whose length differs, and finds none exactly when all lengths agree. |
| Quantitative.SumSamples | darpi/quantitative/probability.py:100-110 | Warns exactly when some vector is not `ITERATIONS` long, and the warning alone never fails the call. An empty list is an index error. Succeeds exactly when all lengths equal the first. Otherwise the error names the first differing position `j >= 1`. A success holds every column's sum. |
| Quantitative.SumSamplesOrderIrrelevant | darpi/quantitative/probability.py:100-110 | Summing a rearrangement of the same vectors gives the same warning and the same total. |
| Vectors.AddReduce | darpi/quantitative/probability.py:110 | `np.add.reduce` over equal-length vectors: each entry is that column's sum across the vectors. |
| Vectors.ColumnSumAppend | darpi/quantitative/probability.py:110 | A column sum splits over the concatenation of two stacks of vectors. |
| Vectors.ColumnSumPermutation | darpi/quantitative/probability.py:110 | A column sum depends only on the multiset of vectors. |
| Vectors.AddReduceOrderIrrelevant | darpi/quantitative/probability.py:110 | `np.add.reduce` gives the same vector for any order of its inputs. |
| Sorting.Insert | darpi/quantitative/probability.py:133 | Inserting into a sorted vector keeps it sorted and adds exactly the one value. |
| Sorting.Sort | darpi/quantitative/probability.py:133 | The result is sorted and a permutation of the input. |
| Sorting.SortedPermutationUnique | darpi/quantitative/probability.py:133 | Two sorted permutations of one multiset are equal, so `Sort` returns the sorted permutation. |
| Sorting.SortIgnoresOrder | darpi/quantitative/probability.py:155 | Sorting any rearrangement of the data gives the same vector. |
| Sorting.SortedEnds | darpi/quantitative/probability.py:155 | The first and last entries of the sorted data are its minimum and maximum. |
| Empirical.ShareFacts | darpi/quantitative/probability.py:132 | The shares `(i + 1) / n` increase strictly, lie in `(0, 1]`, and the last is 1. |
| Empirical.Shares | darpi/quantitative/probability.py:132 | `np.arange(1, n + 1) / n` has `n` entries, entry `i` being `(i + 1) / n`. They increase strictly within `(0, 1]`, and the last is 1. |
| Empirical.EmpiricalCdf | darpi/quantitative/probability.py:131-133 | The costs are the data sorted, as a permutation. The probability at position `i` is `(i + 1) / n`. The probabilities increase strictly within `(0, 1]` and end at 1. |
| Empirical.CdfIsShareAtMost | darpi/quantitative/probability.py:129-133 | At the last position `i` of each distinct sorted cost, exactly `i + 1` of the data are at or below that cost. So the CDF probability `(i + 1) / n` there is the proportion of data at or below it. |
| Empirical.AtMostCount | darpi/quantitative/probability.py:129-133 | For any sorted permutation `c` of the data, and any position `i` that is the last of its value in `c`, exactly `i + 1` of the data are at or below `c[i]`. |
| Empirical.AtMostPermutation | darpi/quantitative/probability.py:129 | The number of values at or below a threshold does not depend on their order. |
| Empirical.AtMostSorted | darpi/quantitative/probability.py:129-133 | In a sorted sequence, exactly `i + 1` entries are at or below `s[i]` when `i` is the last position of its value. |
| Empirical.Grid | darpi/quantitative/probability.py:154 | The grid has 101 strictly increasing percentiles from 0 to 1. |
| Empirical.CumulativeProbs | darpi/quantitative/probability.py:156-157 | The knots `linspace(0, 1, n, endpoint=False) + 1 / n` are exactly the shares `(i + 1) / n`. |
| Quantitative.TopClampedProbs | darpi/quantitative/probability.py:156-160 | The last knot is 0.999 and every other knot is `(i + 1) / n`. |
| Quantitative.TopClampedProbsOrdered | darpi/quantitative/probability.py:156-160 | Up to 1000 samples the moved knots are still non-decreasing. |
| Quantitative.ShareBelowTop | darpi/quantitative/probability.py:156-160 | Up to 1000 samples every knot but the last is at most 0.999. |
| Quantitative.TopClampedProbsDisordered | darpi/quantitative/probability.py:160 | Beyond 1000 samples the second-to-last knot lies above the moved last knot 0.999. |
| Interpolation.Bracket | darpi/quantitative/probability.py:161 | The segment search stops at the first knot pair whose right knot lies above `x`, or at the last knot. |
| Interpolation.Interp | darpi/quantitative/probability.py:161 | `np.interp` returns the last value right of the last knot and the first value left of the first knot. |
| Interpolation.LerpBetween | darpi/quantitative/probability.py:161 | Between its knots a rising line stays between its end values. |
| Interpolation.LerpMonotone | darpi/quantitative/probability.py:161 | A rising line is non-decreasing. |
| Interpolation.InterpInSegment | darpi/quantitative/probability.py:161 | Inside the knot range the interpolant lies between the values at the bracketing knots. |
| Interpolation.InterpBounds | darpi/quantitative/probability.py:161 | For sorted values the interpolant lies between the first and the last value, whatever the knots. |
| Interpolation.InterpMonotone | darpi/quantitative/probability.py:161 | With sorted knots and values, the interpolant is non-decreasing in `x`. |
| Interpolation.InterpAtKnot | darpi/quantitative/probability.py:161 | With strictly increasing knots, interpolating at knot `i` gives value `i`. |
| Interpolation.BracketIgnoresLastKnot | darpi/quantitative/probability.py:161 | Below the second-to-last knot the segment search never reaches the last knot, so moving it does not change the segment. |
| Interpolation.InterpIgnoresLastKnot | darpi/quantitative/probability.py:161 | Moving the last knot, to anywhere not below `x`, leaves the interpolant at `x` unchanged when `x` is below the second-to-last knot. |
| Empirical.Curve | darpi/quantitative/probability.py:161 | The curve has 101 entries, entry `k` interpolated at percentile `k / 100`. Against sorted values every entry lies between the smallest and the largest of them. With non-decreasing knots as well, the curve is non-decreasing. |
| Empirical.CurveWithinData | darpi/quantitative/probability.py:161 | Every interpolated cost lies between the smallest and the largest sample, whatever the knots. Both of those are samples, and every sample lies between them. |
| Empirical.CurveIgnoresLastKnot | darpi/quantitative/probability.py:159-161 | Moving the last knot leaves the curve unchanged at every percentile below the second-to-last knot. |
| Quantitative.ValidatedCurveOrdered | darpi/quantitative/probability.py:154-161 | For any number of samples the curve before the lower-bound overwrite is non-decreasing. |
| Quantitative.ManySamplesCurveOrdered | darpi/quantitative/probability.py:154-161 | Beyond 1000 samples the knots are out of order, yet the curve is still non-decreasing. |
| Quantitative.ManySamplesBelowTop | darpi/quantitative/probability.py:156-161 | Beyond 1000 samples, at every grid percentile below 1.00 the validated curve equals the curve with the plain knots. |
| Quantitative.ManySamplesAtTop | darpi/quantitative/probability.py:159-161 | Percentile 1.00 lies right of the top knot 0.999, so the last entry of the curve is its largest. |
| Quantitative.LowerBoundIndex | darpi/quantitative/probability.py:164 | The overwritten entry is the number of zero costs minus one, or entry 100 (Python's index -1) when no cost is zero. |
| Quantitative.Overwrite | darpi/quantitative/probability.py:166 | `cost[idx] = m` replaces that one entry and keeps every other. |
| Empirical.ZerosLead | darpi/quantitative/probability.py:164 | In a sorted non-negative vector, entry `k` is zero exactly when `k` is below the number of zeros. |
| Empirical.NonZero | darpi/quantitative/probability.py:166 | `data[data != 0]` keeps exactly the nonzero values, with their multiplicities. |
| Empirical.MinNonzero | darpi/quantitative/probability.py:166 | The minimum of the nonzero samples is a sample, nonzero, and at most every nonzero sample. It is missing exactly when all samples are zero. |
| Quantitative.GetEmpiricalPpf | darpi/quantitative/probability.py:154-168 | No samples is a division error. Only zero samples is an empty-minimum error, and this error occurs exactly then. Otherwise the percentiles are the grid, and every entry but the lower-bound one equals the curve. The lower-bound entry is the smallest nonzero sample. |
| Quantitative.PpfUnfolds | darpi/quantitative/probability.py:161-168 | With a nonzero sample, the PPF is the curve with exactly one entry replaced by the smallest nonzero sample. |
| Quantitative.OverwriteLastZero | darpi/quantitative/probability.py:164-166 | Writing a positive value over the last zero of a sorted non-negative curve leaves zeros exactly below that entry. |
| Quantitative.LowerBoundFollowsZeros | darpi/quantitative/probability.py:161-166 | For non-negative samples, some zero and some not, the costs are zero exactly below the lower-bound entry, which is positive. |
| Quantitative.CurveStartsAtMinimum | darpi/quantitative/probability.py:159-161 | For non-negative samples that include a zero, the validated curve starts at 0. |
| Quantitative.CurveAtZero | darpi/quantitative/probability.py:161 | Percentile 0 lies left of positive knots, so the curve there is the smallest sample. |
| Quantitative.SortStartsAtZero | darpi/quantitative/probability.py:155 | Sorted non-negative samples that include a zero start with 0. |
| Quantitative.PositiveSamplesOverwriteTop | darpi/quantitative/probability.py:164-166 | When every sample is positive, the cost at percentile 1.00 becomes the smallest sample, and every other entry is the curve. |
| Histogram.MinOf | darpi/quantitative/probability.py:192 | The minimum is one of the values and at most every value. |
| Histogram.MaxOf | darpi/quantitative/probability.py:192 | The maximum is one of the values and at least every value. |
| Histogram.OuterEdges | darpi/quantitative/probability.py:192 | The default histogram range has positive width and covers every value. |
| Histogram.Edges | darpi/quantitative/probability.py:192 | There are 41 strictly increasing edges from the low end to exactly the high end. |
| Histogram.BinPosition | darpi/quantitative/probability.py:192 | A value in range sits between 0 and 40 bin widths above the low end. |
| Histogram.BinOf | darpi/quantitative/probability.py:192 | Every value in range gets a bin index from 0 to 39. |
| Histogram.BinOfMatchesEdges | darpi/quantitative/probability.py:192 | The computed bin is the one whose edges hold the value: half-open bins, with the last one closed. |
| Histogram.InBinUnique | darpi/quantitative/probability.py:192 | A value lies in at most one bin. |
| Histogram.Counts | darpi/quantitative/probability.py:192 | There is one count per bin, 40 in all. |
| Histogram.CountsMatchEdges | darpi/quantitative/probability.py:192 | Each count equals the number of values lying between that bin's edges. |
| Histogram.CountsTotal | darpi/quantitative/probability.py:192 | The counts add up to the number of values in range. |
| Histogram.CountInRangeAll | darpi/quantitative/probability.py:192 | With the default range every value is counted. |
| Empirical.SumOfShares | darpi/quantitative/probability.py:194 | The per-bin shares add up to the total count's share. |
| Empirical.Frequencies | darpi/quantitative/probability.py:194 | Each frequency is its count divided by the sample count, is non-negative, and together they sum to the total count's share. |
| Empirical.GetHistogramData | darpi/quantitative/probability.py:190-195 | An error (NaN) exactly when there are no samples. Otherwise there are 41 increasing edges covering every nonzero sample. Frequency `b` is the number of nonzero samples in bin `b` divided by the full length. The frequencies sum to the nonzero share, which is at most 1. |
| Results.Collect | darpi/quantitative/probability.py:241-246 | The loop over risks stores the outcomes before the first failure and stops at that failure. |
| Quantitative.RiskDistribution | darpi/quantitative/probability.py:242-244 | The cost triple `(a, c, b)` is passed on as minimum `a`, maximum `b`, mode `c`. It succeeds exactly when these are numbers with `a <= c <= b` and `a < b`, and the distribution it builds can always be drawn from. |
| Quantitative.SampleRisk | darpi/quantitative/probability.py:242-245 | A risk yields a vector of `ITERATIONS` entries exactly when its distribution is valid and its probability is a number in `[0, 1]`. |
| Quantitative.Aggregate | darpi/quantitative/probability.py:241-248 | No outcomes is an index error. It succeeds exactly when every outcome succeeds. The stored vectors are the successes before the first failure, and a failure is the run's error. A success is the column sums of all stored vectors. |
| Quantitative.GetAggregateData | darpi/quantitative/probability.py:241-248 | No risks is an index error. The run succeeds exactly when sampling every risk succeeds. Stored vector `i` is what sampling risk `i` with its own random inputs yields. The risks before the first invalid one keep their stored vectors, and the invalid one's error is the run's error. The total is the element-wise sum of one vector per risk, in order. |
| Quantitative.GridIndex | darpi/quantitative/probability.py:297 | The search finds a grid position holding exactly the percentile, and finds none exactly when the percentile is off the grid. |
| Quantitative.GridIndexAt | darpi/quantitative/probability.py:297 | The search for percentile `k / 100` finds exactly position `k`. |
| Quantitative.RoundHalfEven | darpi/quantitative/probability.py:297 | The result is an integer within a half of the input, and on a tie it is the even one. |
| Quantitative.RoundNearest | darpi/quantitative/probability.py:297 | An integer closer than a half to the input is the rounded value, so rounding is unique and keeps integers. |
| Quantitative.RoundCents | darpi/quantitative/probability.py:297 | `.round(2)` gives a whole number of cents within half a cent of the input. A result exactly half a cent away has an even number of cents, as numpy's half-to-even rounding does. |
| Quantitative.RoundCentsKeepsCents | darpi/quantitative/probability.py:297 | A value that already is a whole number of cents is unchanged. |
| Quantitative.RoundCentsIdempotent | darpi/quantitative/probability.py:297 | Rounding to cents twice is rounding once. |
| Quantitative.GetPValue | darpi/quantitative/probability.py:294-297 | PPF errors pass through. Otherwise it is an index error exactly when the percentile is off the grid, and a success is the PPF cost at a grid position holding that percentile, rounded to cents. |
| Quantitative.GetPValueAtGrid | darpi/quantitative/probability.py:294-297 | With some nonzero sample the PPF exists, and looking up percentile `k / 100` returns its entry `k` rounded to cents. |
| Quantitative.GetPValueOffGrid | darpi/quantitative/probability.py:297 | With some nonzero sample the PPF exists, and percentile 0.333, which is off the grid, is an index error. |
| Probability.GetTriangularDistribution | darpi/probability.py:39-41 | A type error exactly for a non-number, and a division error exactly for equal bounds. Otherwise the parameters describe support `[a, b]` and mode `c`, with no range check. |
| Probability.GetSamples | darpi/probability.py:65-69 | A type error for a non-number. A scipy domain error exactly when the shape is outside `[0, 1]` or the scale is negative. A negative count of draws fails, and so do more draws than slots. It succeeds exactly for a number on a drawable distribution with between 0 and `ITERATIONS` draws. Then the vector has `ITERATIONS` entries, the draws plus zeros as a multiset. |
| Probability.SumSamples | darpi/probability.py:90 | An empty list sums to the scalar 0.0, and only an empty list does. Vectors of unequal length cannot be stacked, and fail exactly then. It succeeds exactly for an empty list or vectors of one length. Then it holds every column's sum. |
| Probability.GetEmpiricalPpf | darpi/probability.py:134-139 | No data is a division error, and only no data is. It succeeds exactly for nonempty data. Then it gives 101 non-decreasing costs on the grid, from the smallest sample to the largest. |
| Probability.PlainPpfAtKnots | darpi/probability.py:134-139 | At a grid percentile equal to knot `i`, the plain PPF returns the `i`-th smallest sample. |
| Probability.PlainPpfIsCurve | darpi/probability.py:134-139 | The plain PPF is the interpolated curve against the knots `(i + 1) / n`. |
| Quantitative.KnotsBelowTopAgree | darpi/quantitative/probability.py:156-160 | The plain and validated knots differ only at the top, 1 against 0.999. A grid percentile below the second-to-last knot lies below or at every knot from there on. |
| Quantitative.GridBelowTop | darpi/quantitative/probability.py:154 | A grid percentile below the second-to-last knot is at most 0.99. |
| Quantitative.KnotMoveBelowTop | darpi/quantitative/probability.py:159-161 | The validated and plain curves agree below the second-to-last knot. |
| Probability.ValidatedMatchesPlainBelowTop | darpi/probability.py:134-139 | The validated curve, before its overwrite, equals the plain PPF at every grid percentile below the second-to-last knot. |
| Probability.SampleRisk | darpi/probability.py:213-216 | A risk yields a vector of `ITERATIONS` entries exactly when its triple forms a valid distribution and `int(ITERATIONS * p)` lies in `[0, ITERATIONS]`. |
| Probability.Aggregate | darpi/probability.py:212-219 | No outcomes sum to the scalar 0.0. It succeeds exactly when every outcome does. The stored vectors are the successes before the first failure, and a failure is the run's error. A success is the column sums. |
| Probability.GetAggregateData | darpi/probability.py:212-219 | No risks gives 0.0. The run succeeds exactly when sampling every risk succeeds. Stored vector `i` is what sampling risk `i` with its own random inputs yields, up to the first failing risk, whose error is the run's error. The total is the element-wise sum of one `ITERATIONS`-long vector per risk, in order. |
| Probability.TriangularAgrees | darpi/probability.py:39-41 | On arguments the validated version accepts, both versions build the same distribution. |
| Probability.RejectedShapes | darpi/probability.py:39-41 | An unvalidated distribution can be drawn from exactly when the validated construction accepts the same arguments. |
| Probability.ShapeInUnit | darpi/probability.py:39-41 | With increasing bounds, the shape lies in `[0, 1]` exactly when the mode lies between the bounds. |
| Probability.SamplesAgree | darpi/probability.py:65-69 | For a probability in `[0, 1]` and a drawable distribution, both versions build the same vector from the same random inputs. |
| Probability.ProbabilityAboveOne | darpi/probability.py:66-67 | `p = 1.000001` still truncates to 100000 draws: the unvalidated vector holds every draw, and the validated version rejects `p`. |
| Probability.ProbabilityBelowZero | darpi/probability.py:66-67 | `p = -0.000001` truncates to no draws: the unvalidated vector is all zeros, and the validated version rejects `p`. |
| Probability.SumSamplesAgree | darpi/probability.py:90 | On a nonempty list of equal-length vectors both versions compute the same sum. |
| Probability.SampleRiskAgrees | darpi/probability.py:213-216 | A risk the validated version accepts yields the same vector under both versions. |
| Probability.AggregateAgrees | darpi/probability.py:212-219 | When every risk is valid, both runners store the same vectors and compute the same total. |
| Scenarios.TriangularOfOneTwoThree | tests/test_probability.py:23-27 | Bounds 1 and 3 with mode 2 give shape 0.5, loc 1, scale 2. |
| Scenarios.HalfTheSlotsAreZero | tests/test_probability.py:30-35 | With probability 0.5 and no zero draw, the vector has 100000 entries, 50000 of them zero. |
| Scenarios.SumOfTwoTriples | tests/test_probability.py:38-41 | `[1, 2, 3] + [4, 5, 6]` is `[5, 7, 9]` in both versions. The validated one also warns about the length. |
| Scenarios.ThirdVectorTooLong | darpi/quantitative/probability.py:104-109 | With lengths 1, 1 and 2 the validated sum names position 2, and the unvalidated sum fails to stack. |
| Scenarios.CdfOfFour | tests/test_probability.py:44-48 | The CDF of `[1, 2, 3, 4]` keeps the order and has probabilities 0.25, 0.5, 0.75, 1. |
| Scenarios.SharesOfFour | darpi/probability.py:112 | The four shares are 0.25, 0.5, 0.75 and 1. |
| Scenarios.NoRisks | darpi/probability.py:218 | With no risks the unvalidated run gives 0.0 and the validated run an index error. |
| Scenarios.FiveCosts | darpi/quantitative/probability.py:286-297 | For costs 1000 to 5000, the cost at 0.5 is 2500 and the cost at 1.0 is 1000. |
| Scenarios.RoundingExamples | darpi/quantitative/probability.py:297 | A third of 1000 rounds to 333.33, and the tie 0.125 rounds to the even 0.12. |
| Scenarios.FivePpf | darpi/quantitative/probability.py:154-168 | For costs 1000 to 5000, PPF entry 50 is 2500 and entry 100 is the lower bound 1000. |
| Scenarios.KnotsOfFive | darpi/quantitative/probability.py:156-160 | Five samples give the knots 0.2, 0.4, 0.6, 0.8 and 0.999. |
| Scenarios.InterpAtHalf | darpi/quantitative/probability.py:161 | Percentile 0.5 falls between knots 0.4 and 0.6, halfway from 2000 to 3000. |

## Left out

- Floating point: every value is an exact real. `int(ITERATIONS * p)` truncates the exact product, and float rounding near integers is not modelled.
- `.round(2)` in `get_p_value` rounds the exact real. On a float, `x * 100` may itself be rounded first, so a value such as 2.675 can round differently from its exact decimal.
- `get_p_value` compares floats with `==`. The model's grid holds the exact `k / 100`, and a percentile matches only if it equals one of them. In floating point `np.linspace(0, 1, 101)[k]` is `k * 0.01`, which differs from the literal `k / 100` for k in {35, 41, 47, 57, 69, 70, 82, 83, 94, 95}. For those percentiles (0.35, 0.41, 0.47, 0.57, 0.69, 0.70, 0.82, 0.83, 0.94, 0.95) `get_p_value` (darpi/quantitative/probability.py:297) finds no match and raises IndexError, where Quantitative.GetPValueAtGrid returns entry `k`. This looks like an unintended defect of the float comparison.
- The inverse-CDF maths of `stats.triang(...).rvs` and the randomness of `np.random.shuffle` are not modelled. The draws and the shuffle choices are inputs, so nothing is proved about how draws are distributed.
- scipy's argument check happens when drawing, in both versions' `get_samples`. It is modelled only as the outcome `InvalidShape` of `Risks.Drawable`: the shape must lie in `[0, 1]` and the scale must not be negative. In the validated runner the distribution comes from `get_triangular_distribution`, which always builds a drawable one, so there `InvalidShape` cannot arise.
- The `warnings` module is not modelled. The warning is the `warned` flag of `Quantitative.Summed`.
- Non-numeric arguments are one `Other` value. A Python `int` or `float` is a `Number`. A value such as `np.int64` fails the validated `isinstance` check, while the unvalidated code computes with it. The model calls it `Other` in both versions, so for the unvalidated version it reports a type error that Python would not raise.
- GetTriangularDistribution (both versions): the division error for equal bounds holds for Python `int` and `float` bounds. If any bound is an `np.float64`, which passes the validated `isinstance` check, then `(c - a) / range_val` with `a == b` yields NaN with a RuntimeWarning instead of raising. The program then builds `triang(c=nan, scale=0)`, which fails only at the draw with scipy's domain ValueError. numpy scalar types are not modelled.
- Probability.GetSamples: a `str` probability is `Other`, and the model reports a type error. In Python `ITERATIONS * "0.5"` repeats the string, and `int(...)` then raises ValueError (darpi/probability.py:66). The model does not distinguish the two exception classes for this input.
- The histogram of an empty sample vector divides 0 by 0. numpy yields NaN frequencies without raising. The model reports this as `NotANumber` and does not build the NaN vector.
- The risks dictionary is a sequence of `Risk` records in insertion order. Writing `"samples"` back into the caller's dictionary is modelled as the `stored` vectors of the returned `Run`.
- Error messages are not modelled. The errors carry only the values the messages mention.
- Plotting (`darpi/plots.py`, `darpi/qualitative/plots.py`), the PPF table (`darpi/quantitative/tables.py`) and packaging (`setup.py`) are not part of this model. They render or wrap results and compute nothing of their own.
- `config.py`'s namedtuples are the datatypes of module `Config`, and `ITERATIONS` is the constant `Config.Iterations`.
- The `get_p_value` docstring example is not asserted. It says the median of 1000 to 5000 "might" be 3000. The model computes 2500, because the knots are `(i + 1) / n` and 0.5 lies halfway between knots 0.4 and 0.6.
- Quantitative.TopClampedProbsOrdered: the knots are ordered only up to 1000 samples. Beyond that the moved top knot 0.999 lies below `(n - 1) / n` (Quantitative.TopClampedProbsDisordered). numpy's result for unsorted knots is unspecified. The curve on the grid is still non-decreasing (Quantitative.ManySamplesCurveOrdered), because percentile 1.00 is the only grid point at or above 0.999.
- numpy searches for the segment by bisection, while `Interpolation.Bracket` scans linearly. For non-decreasing knots the two find the same segment. The same holds for the validated knots beyond 1000 samples, because every grid percentile other than 1.00 lies below 0.999.

=== FILE: config.dfy ===
/** Process-wide constants and the record types the statistics return. */
module Config {

  /** The number of Monte Carlo samples drawn per risk. */
  const Iterations: nat := 100000

  /** Empirical CDF: sorted costs and their cumulative probabilities. */
  datatype CdfData = CdfData(cost: seq<real>, p: seq<real>)

  /** Empirical PPF: the cost at each percentile of the 101-point grid. */
  datatype PpfData = PpfData(cost: seq<real>, p: seq<real>)

  /** Histogram: bin edges (41) and frequencies normalised by the sample count (40). */
  datatype HistogramData = HistogramData(cost: seq<real>, frequency: seq<real>)
}

=== FILE: empirical.dfy ===
/** Empirical statistics shared by both versions of the engine: the CDF, the
    percentile grid and interpolated curve behind the PPF, the minimum
    nonzero sample and the zero-excluding histogram. */
module Empirical {
  import opened Config
  import opened Results
  import opened Sorting
  import opened Interpolation
  import opened Vectors
  import opened Histogram

  /** Number of points on the percentile grid. */
  const GridSize: nat := 101

  /** `np.linspace(0, 1, 101)`: the percentiles 0.00, 0.01, ..., 1.00. */
  function Grid(): (g: seq<real>)
    ensures |g| == GridSize
    ensures g[0] == 0.0 && g[GridSize - 1] == 1.0
    ensures StrictlyIncreasing(g)
  {
    seq(GridSize, k => k as real / 100.0)
  }

  lemma DivideMono(a: real, b: real, n: real)
    requires a <= b && 0.0 < n
    ensures a / n <= b / n
    ensures a < b ==> a / n < b / n
  {
    assert b / n - a / n == (b - a) / n;
  }

  lemma ShareBounds(i: nat, n: nat)
    requires i < n
    ensures 0.0 < (i + 1) as real / n as real <= 1.0
  {
    DivideMono(0.0, (i + 1) as real, n as real);
    DivideMono((i + 1) as real, n as real, n as real);
  }

  /** The share of `n` values held by the first `i + 1`. */
  function Share(i: nat, n: nat): real
    requires i < n
  {
    (i + 1) as real / n as real
  }

  /** The shares of `n` values rise strictly from above 0 to exactly 1. */
  lemma ShareFacts(n: nat)
    ensures forall i, j :: 0 <= i < j < n ==> Share(i, n) < Share(j, n)
    ensures forall i :: 0 <= i < n ==> 0.0 < Share(i, n) <= 1.0
    ensures n > 0 ==> Share(n - 1, n) == 1.0
  {
    forall i, j | 0 <= i < j < n
      ensures Share(i, n) < Share(j, n)
    {
      DivideMono((i + 1) as real, (j + 1) as real, n as real);
    }
    forall i | 0 <= i < n
      ensures 0.0 < Share(i, n) <= 1.0
    {
      ShareBounds(i, n);
    }
    if n > 0 {
      ShareOfAll(n);
    }
  }

  /** All `n` of `n` values make up the whole. */
  lemma ShareOfAll(n: nat)
    requires 0 < n
    ensures Share(n - 1, n) == 1.0
  {
    var x := n as real;
    assert (n - 1 + 1) as real == x;
    assert x / x * x == x;
  }

  /** `np.arange(1, n + 1) / n`: the share of `n` sorted values at or below
      each position. */
  function Shares(n: nat): (p: seq<real>)
    ensures |p| == n
    ensures StrictlyIncreasing(p)
    ensures forall i :: 0 <= i < n ==> 0.0 < p[i] <= 1.0
    ensures n > 0 ==> p[n - 1] == 1.0
    ensures forall i :: 0 <= i < n ==> p[i] == Share(i, n)
  {
    ShareFacts(n);
    seq(n, i requires 0 <= i < n => Share(i, n))
  }

  lemma SharesSorted(n: nat)
    ensures Sorted(Shares(n))
  {
  }

  /** `np.linspace(0, 1, n, endpoint=False) + 1 / n`. Entry `i` is
      `(i + 1) / n`, the share of the sorted data at or below position `i`. */
  function CumulativeProbs(n: nat): (xp: seq<real>)
    requires n > 0
    ensures |xp| == n
    ensures xp == Shares(n)
  {
    var step := 1.0 / n as real;
    var xp := seq(n, i => i as real * step + 1.0 / n as real);
    assert forall i :: 0 <= i < n ==> xp[i] == Shares(n)[i] by {
      forall i | 0 <= i < n
        ensures xp[i] == Shares(n)[i]
      {
        assert i as real * step == i as real / n as real;
      }
    }
    xp
  }

  /** The interpolated cost at every grid percentile. Against sorted values
      it stays between the smallest and the largest of them, and with
      non-decreasing knots as well it is non-decreasing. */
  function Curve(xp: seq<real>, sorted: seq<real>): (cost: seq<real>)
    requires |xp| == |sorted| > 0
    ensures |cost| == GridSize
    ensures forall k :: 0 <= k < GridSize ==> cost[k] == Interp(Grid()[k], xp, sorted)
    ensures Sorted(sorted) ==>
      forall k :: 0 <= k < GridSize ==> sorted[0] <= cost[k] <= sorted[|sorted| - 1]
    ensures Sorted(xp) && Sorted(sorted) ==> Sorted(cost)
  {
    var cost := seq(GridSize, k requires 0 <= k < GridSize => Interp(Grid()[k], xp, sorted));
    CurveShape(xp, sorted, cost);
    cost
  }

  lemma CurveShape(xp: seq<real>, sorted: seq<real>, cost: seq<real>)
    requires |xp| == |sorted| > 0 && |cost| == GridSize
    requires forall k :: 0 <= k < GridSize ==> cost[k] == Interp(Grid()[k], xp, sorted)
    ensures Sorted(sorted) ==>
      forall k :: 0 <= k < GridSize ==> sorted[0] <= cost[k] <= sorted[|sorted| - 1]
    ensures Sorted(xp) && Sorted(sorted) ==> Sorted(cost)
  {
    if Sorted(sorted) {
      forall k | 0 <= k < GridSize
        ensures sorted[0] <= cost[k] <= sorted[|sorted| - 1]
      {
        InterpBounds(Grid()[k], xp, sorted);
      }
      if Sorted(xp) {
        forall i, j | 0 <= i <= j < GridSize
          ensures cost[i] <= cost[j]
        {
          InterpMonotone(Grid()[i], Grid()[j], xp, sorted);
        }
      }
    }
  }

  /** Moving the last knot, to anywhere not below the percentile, leaves
      the curve unchanged at a percentile below the second-to-last knot. */
  lemma CurveIgnoresLastKnot(xp: seq<real>, yp: seq<real>, sorted: seq<real>, k: nat)
    requires |xp| == |yp| == |sorted| >= 2 && k < GridSize
    requires forall i :: 0 <= i < |xp| - 1 ==> xp[i] == yp[i]
    requires Grid()[k] < xp[|xp| - 2] && Grid()[k] <= xp[|xp| - 1] && Grid()[k] <= yp[|yp| - 1]
    ensures Curve(xp, sorted)[k] == Curve(yp, sorted)[k]
  {
    InterpIgnoresLastKnot(Grid()[k], xp, yp, sorted);
  }

  /** Every interpolated cost lies between the smallest and the largest
      sample, whatever the knots. */
  lemma CurveWithinData(xp: seq<real>, data: seq<real>)
    requires |xp| == |data| > 0
    ensures var sorted := Sort(data);
      forall k :: 0 <= k < GridSize ==> sorted[0] <= Curve(xp, sorted)[k] <= sorted[|data| - 1]
    ensures forall v :: v in data ==> Sort(data)[0] <= v <= Sort(data)[|data| - 1]
    ensures Sort(data)[0] in data && Sort(data)[|data| - 1] in data
  {
    SortedEnds(Sort(data), data);
  }

  /** With non-decreasing knots the interpolated curve is non-decreasing. */
  lemma CurveOrdered(xp: seq<real>, data: seq<real>)
    requires |xp| == |data| > 0 && Sorted(xp)
    ensures Sorted(Curve(xp, Sort(data)))
  {
  }

  /** In a non-decreasing, non-negative sequence the zeros come first: entry
      `k` is zero exactly when `k` is below the number of zeros. */
  lemma {:induction false} ZerosLead(s: seq<real>)
    requires Sorted(s) && forall k :: 0 <= k < |s| ==> 0.0 <= s[k]
    ensures forall k :: 0 <= k < |s| ==> (s[k] == 0.0 <==> k < multiset(s)[0.0])
    decreases |s|
  {
    if |s| > 0 {
      var m := |s| - 1;
      if s[m] == 0.0 {
        assert forall k :: 0 <= k < |s| ==> s[k] <= s[m];
        AllZerosCount(s);
      } else {
        var t := s[..m];
        assert s == t + [s[m]];
        assert Sorted(t);
        ZerosLead(t);
        assert multiset(s)[0.0] == multiset(t)[0.0] <= m by {
          assert multiset(s) == multiset(t) + multiset{s[m]};
          assert multiset(t)[0.0] <= |multiset(t)|;
        }
      }
    }
  }

  /** A sequence of zeros holds `|s|` zeros. */
  lemma {:induction false} AllZerosCount(s: seq<real>)
    requires forall k :: 0 <= k < |s| ==> s[k] == 0.0
    ensures multiset(s)[0.0] == |s|
    decreases |s|
  {
    if |s| > 0 {
      assert s == [s[0]] + s[1..];
      AllZerosCount(s[1..]);
    }
  }

  /** The empirical CDF: the sorted data, with probability `(i + 1) / n` at
      position `i`. */
  function EmpiricalCdf(data: seq<real>): (r: CdfData)
    ensures |r.cost| == |r.p| == |data|
    ensures Sorted(r.cost) && multiset(r.cost) == multiset(data)
    ensures r.cost == Sort(data)
    ensures StrictlyIncreasing(r.p)
    ensures forall i :: 0 <= i < |r.p| ==> 0.0 < r.p[i] <= 1.0
    ensures |data| > 0 ==> r.p[|data| - 1] == 1.0
    ensures forall i :: 0 <= i < |data| ==> r.p[i] == Share(i, |data|)
  {
    CdfData(Sort(data), Shares(|data|))
  }

  /** How many entries of `s` are at most `v`. */
  function AtMost(s: seq<real>, v: real): (c: nat)
    ensures c <= |s|
  {
    if |s| == 0 then 0 else (if s[0] <= v then 1 else 0) + AtMost(s[1..], v)
  }

  lemma {:induction false} AtMostAppend(a: seq<real>, b: seq<real>, v: real)
    ensures AtMost(a + b, v) == AtMost(a, v) + AtMost(b, v)
    decreases |a|
  {
    if |a| == 0 {
      assert a + b == b;
    } else {
      assert (a + b)[1..] == a[1..] + b;
      AtMostAppend(a[1..], b, v);
    }
  }

  /** The count does not depend on the order of the entries. */
  lemma {:induction false} AtMostPermutation(s: seq<real>, t: seq<real>, v: real)
    requires multiset(s) == multiset(t)
    ensures AtMost(s, v) == AtMost(t, v)
    decreases |s|
  {
    if |s| == 0 {
      assert |t| == |multiset(t)| == 0;
    } else {
      assert s[0] in multiset(t);
      var k :| 0 <= k < |t| && t[k] == s[0];
      PermutationTail(s, t, k);
      AtMostPermutation(s[1..], t[..k] + t[k + 1..], v);
      assert t == t[..k] + ([t[k]] + t[k + 1..]);
      AtMostAppend(t[..k], [t[k]] + t[k + 1..], v);
      AtMostAppend(t[..k], t[k + 1..], v);
    }
  }

  lemma {:induction false} AtMostAll(s: seq<real>, v: real)
    requires forall j :: 0 <= j < |s| ==> s[j] <= v
    ensures AtMost(s, v) == |s|
    decreases |s|
  {
    if |s| > 0 {
      AtMostAll(s[1..], v);
    }
  }

  lemma {:induction false} AtMostNone(s: seq<real>, v: real)
    requires forall j :: 0 <= j < |s| ==> v < s[j]
    ensures AtMost(s, v) == 0
    decreases |s|
  {
    if |s| > 0 {
      AtMostNone(s[1..], v);
    }
  }

  /** In sorted values, at the last position `i` of a value exactly `i + 1`
      entries are at most that value. */
  lemma AtMostSorted(s: seq<real>, i: nat)
    requires Sorted(s) && i < |s| && (i == |s| - 1 || s[i] < s[i + 1])
    ensures AtMost(s, s[i]) == i + 1
  {
    assert s == s[..i + 1] + s[i + 1..];
    AtMostAppend(s[..i + 1], s[i + 1..], s[i]);
    AtMostAll(s[..i + 1], s[i]);
    assert forall j :: i + 1 <= j < |s| ==> s[i + 1] <= s[j];
    AtMostNone(s[i + 1..], s[i]);
  }

  /** Among values whose sorted order is `c`, exactly `i + 1` are at most
      `c[i]` when `i` is the last position of its value. */
  lemma AtMostCount(c: seq<real>, data: seq<real>, i: nat)
    requires Sorted(c) && multiset(c) == multiset(data)
    requires i < |c| && (i == |c| - 1 || c[i] < c[i + 1])
    ensures AtMost(data, c[i]) == i + 1
  {
    AtMostSorted(c, i);
    AtMostPermutation(c, data, c[i]);
  }

  /** The CDF's meaning: at the last position `i` of each distinct sorted
      value, exactly `i + 1` of the data are at or below it, so the CDF
      probability `(i + 1) / n` there is their share of the data. */
  lemma CdfIsShareAtMost(data: seq<real>, i: nat)
    requires i < |data|
    requires i == |data| - 1 || Sort(data)[i] < Sort(data)[i + 1]
    ensures AtMost(data, Sort(data)[i]) == i + 1
  {
    AtMostCount(Sort(data), data, i);
  }

  /** `data[data != 0]`: the nonzero entries, in order. */
  function NonZero(data: seq<real>): (r: seq<real>)
    ensures multiset(r) == multiset(data)[0.0 := 0]
    ensures |r| == |data| - multiset(data)[0.0] <= |data|
    ensures forall v :: v in r <==> v in data && v != 0.0
  {
    if |data| == 0 then []
    else
      var m := |data| - 1;
      assert data == data[..m] + [data[m]];
      var r := NonZero(data[..m]);
      assert forall v :: v in data <==> v in data[..m] || v == data[m];
      if data[m] == 0.0 then r else r + [data[m]]
  }

  /** `samples[samples != 0].min()`, or `None` where numpy's `min` fails on
      the empty selection. */
  function MinNonzero(data: seq<real>): (m: Option<real>)
    ensures m.None? <==> forall i :: 0 <= i < |data| ==> data[i] == 0.0
    ensures m.Some? ==> m.value != 0.0 && m.value in data
    ensures m.Some? ==> forall v :: v in data && v != 0.0 ==> m.value <= v
  {
    var nz := NonZero(data);
    if |nz| == 0 then
      assert forall i :: 0 <= i < |data| ==> data[i] == 0.0 by {
        forall i | 0 <= i < |data|
          ensures data[i] == 0.0
        {
          assert data[i] in data;
        }
      }
      None
    else
      assert nz[0] in nz;
      Some(MinOf(nz))
  }

  lemma {:induction false} SumOfShares(c: seq<nat>, n: real)
    requires n > 0.0
    ensures Sum(seq(|c|, b requires 0 <= b < |c| => c[b] as real / n)) == Total(c) as real / n
    decreases |c|
  {
    var f := seq(|c|, b requires 0 <= b < |c| => c[b] as real / n);
    if |c| > 0 {
      assert f[1..] == seq(|c[1..]|, b requires 0 <= b < |c[1..]| => c[1..][b] as real / n);
      SumOfShares(c[1..], n);
      assert c[0] as real / n + Total(c[1..]) as real / n == (c[0] + Total(c[1..])) as real / n;
    }
  }

  /** `hist / total_data_points`: each count as a share of `n` samples. */
  function Frequencies(counts: seq<nat>, n: nat): (f: seq<real>)
    requires n > 0
    ensures |f| == |counts|
    ensures forall b :: 0 <= b < |f| ==> 0.0 <= f[b] && f[b] == counts[b] as real / n as real
    ensures Sum(f) == Total(counts) as real / n as real
  {
    SumOfShares(counts, n as real);
    seq(|counts|, b requires 0 <= b < |counts| => counts[b] as real / n as real)
  }

  /** A part of a whole is at most all of it. */
  lemma PartShare(k: nat, n: nat)
    requires 0 < n && k <= n
    ensures k as real / n as real <= 1.0
  {
    DivideMono(k as real, n as real, n as real);
  }

  /** The histogram of the nonzero samples, each bin's count divided by the
      length of the whole vector. With no data numpy divides 0 by 0 and the
      frequencies are NaN. */
  function GetHistogramData(data: seq<real>): (h: Result<HistogramData>)
    ensures h.Err? <==> |data| == 0
    ensures h.Err? ==> h.error == NotANumber
    ensures h.Ok? ==> |h.value.cost| == Bins + 1 && |h.value.frequency| == Bins
    ensures h.Ok? ==> StrictlyIncreasing(h.value.cost)
    ensures h.Ok? ==> forall v :: v in data && v != 0.0 ==> h.value.cost[0] <= v <= h.value.cost[Bins]
    ensures h.Ok? ==> forall b :: 0 <= b < Bins ==>
      0.0 <= h.value.frequency[b]
      && h.value.frequency[b] == CountInBin(NonZero(data), h.value.cost, b) as real / |data| as real
    ensures h.Ok? ==>
      Sum(h.value.frequency) == |NonZero(data)| as real / |data| as real <= 1.0
  {
    var nz := NonZero(data);
    var range := OuterEdges(nz);
    var counts := Counts(nz, range.0, range.1);
    if |data| == 0 then Err(NotANumber)
    else
      var edges := Edges(range.0, range.1);
      var frequency := Frequencies(counts, |data|);
      assert forall b :: 0 <= b < Bins ==> counts[b] == CountInBin(nz, edges, b) by {
        forall b | 0 <= b < Bins
          ensures counts[b] == CountInBin(nz, edges, b)
        {
          CountsMatchEdges(nz, range.0, range.1, b);
        }
      }
      CountsTotal(nz, range.0, range.1);
      CountInRangeAll(nz, range.0, range.1);
      PartShare(|nz|, |data|);
      Ok(HistogramData(edges, frequency))
  }
}

=== FILE: histogram.dfy ===
/** Equal-width binning, as `np.histogram(values, bins=40)` performs it with
    its default range. */
module Histogram {
  import opened Interpolation

  const Bins: nat := 40

  function MinOf(s: seq<real>): (m: real)
    requires |s| > 0
    ensures m in s
    ensures forall v :: v in s ==> m <= v
  {
    if |s| == 1 then s[0]
    else
      assert s == [s[0]] + s[1..];
      var m := MinOf(s[1..]);
      if s[0] <= m then s[0] else m
  }

  function MaxOf(s: seq<real>): (m: real)
    requires |s| > 0
    ensures m in s
    ensures forall v :: v in s ==> v <= m
  {
    if |s| == 1 then s[0]
    else
      assert s == [s[0]] + s[1..];
      var m := MaxOf(s[1..]);
      if m <= s[0] then s[0] else m
  }

  /** numpy's default histogram range: the data's minimum and maximum,
      (0, 1) when there is no data, widened by 0.5 on each side when the
      two coincide. The range always has positive width and covers the data. */
  function OuterEdges(s: seq<real>): (range: (real, real))
    ensures range.0 < range.1
    ensures forall v :: v in s ==> range.0 <= v <= range.1
  {
    if |s| == 0 then (0.0, 1.0)
    else
      var lo, hi := MinOf(s), MaxOf(s);
      if lo == hi then (lo - 0.5, hi + 0.5) else (lo, hi)
  }

  /** `np.linspace(lo, hi, Bins + 1)`: evenly spaced edges whose last entry
      is exactly `hi`. */
  function Edges(lo: real, hi: real): (e: seq<real>)
    requires lo < hi
    ensures |e| == Bins + 1
    ensures e[0] == lo && e[Bins] == hi
    ensures StrictlyIncreasing(e)
  {
    var e := seq(Bins + 1, i requires 0 <= i <= Bins => EdgeAt(lo, hi, i));
    assert forall i, j :: 0 <= i < j < |e| ==> e[i] < e[j] by {
      forall i, j | 0 <= i < j < |e|
        ensures e[i] < e[j]
      {
        EdgesIncrease(lo, hi, i, j);
      }
    }
    e
  }

  /** Edge `i`: `i` bin widths above `lo`, with the last edge set to `hi`
      itself. */
  function EdgeAt(lo: real, hi: real, i: nat): real {
    if i == Bins then hi else lo + i as real * ((hi - lo) / Bins as real)
  }

  lemma EdgesIncrease(lo: real, hi: real, i: nat, j: nat)
    requires lo < hi && i < j <= Bins
    ensures EdgeAt(lo, hi, i) < EdgeAt(lo, hi, j)
  {
    var step := (hi - lo) / Bins as real;
    StepFacts(lo, hi);
    MulLeftStrict(i as real, j as real, step);
  }

  /** The bin width is positive and `Bins` of them span the range. */
  lemma StepFacts(lo: real, hi: real)
    requires lo < hi
    ensures 0.0 < (hi - lo) / Bins as real
    ensures Bins as real * ((hi - lo) / Bins as real) == hi - lo
    ensures 0.0 < Bins as real / (hi - lo)
    ensures (hi - lo) * (Bins as real / (hi - lo)) == Bins as real
  {
  }

  lemma MulLeft(a: real, b: real, k: real)
    requires a <= b && 0.0 <= k
    ensures a * k <= b * k
  {
    assert (b - a) * k >= 0.0;
  }

  lemma MulLeftStrict(a: real, b: real, k: real)
    requires a < b && 0.0 < k
    ensures a * k < b * k
  {
    assert (b - a) * k > 0.0;
  }

  /** Scaling the offset into bin units and back restores it. */
  lemma ScaleRoundTrip(d: real, w: real)
    requires 0.0 < w
    ensures (d * (Bins as real / w)) * (w / Bins as real) == d
  {
    assert (Bins as real / w) * (w / Bins as real) == 1.0;
  }

  /** The offset of `v` from `lo` in bin units: between 0 and `Bins`. */
  function BinPosition(v: real, lo: real, hi: real): (u: real)
    requires lo <= v <= hi && lo < hi
    ensures 0.0 <= u <= Bins as real
  {
    var k := Bins as real / (hi - lo);
    PositionBounds(v - lo, hi - lo);
    (v - lo) * k
  }

  lemma PositionBounds(d: real, w: real)
    requires 0.0 <= d <= w && 0.0 < w
    ensures 0.0 <= d * (Bins as real / w) <= Bins as real
  {
    var k := Bins as real / w;
    assert w * k == Bins as real;
    MulLeft(0.0, d, k);
    MulLeft(d, w, k);
  }

  /** The bin numpy assigns an in-range value: its position truncated, with
      the maximum itself put in the last bin. */
  function BinOf(v: real, lo: real, hi: real): (b: int)
    requires lo <= v <= hi && lo < hi
    ensures 0 <= b < Bins
  {
    var t := BinPosition(v, lo, hi).Floor;
    if t == Bins then Bins - 1 else t
  }

  /** `v` lies in bin `b` of the edges `e`: half-open, except that the last
      bin also holds its right edge. */
  ghost predicate InBin(v: real, e: seq<real>, b: nat)
    requires |e| == Bins + 1 && b < Bins
  {
    e[b] <= v && (v < e[b + 1] || (b == Bins - 1 && v == e[Bins]))
  }

  /** The bin index numpy computes is the bin whose edges hold the value. */
  lemma BinOfMatchesEdges(v: real, lo: real, hi: real)
    requires lo <= v <= hi && lo < hi
    ensures InBin(v, Edges(lo, hi), BinOf(v, lo, hi))
  {
    var step := (hi - lo) / Bins as real;
    var u := BinPosition(v, lo, hi);
    ScaleRoundTrip(v - lo, hi - lo);
    assert v == lo + u * step;
    var t := u.Floor;
    if t == Bins {
      StepFacts(lo, hi);
      assert v == hi;
      EdgeValue(lo, hi, Bins - 1);
      MulLeftStrict((Bins - 1) as real, Bins as real, step);
    } else {
      StepFacts(lo, hi);
      FloorBin(u, step);
      EdgeValue(lo, hi, t);
      EdgeValue(lo, hi, t + 1);
    }
  }

  /** Edge `i` lies `i` bin widths above `lo`, the last one included. */
  lemma EdgeValue(lo: real, hi: real, i: nat)
    requires lo < hi && i <= Bins
    ensures Edges(lo, hi)[i] == lo + i as real * ((hi - lo) / Bins as real)
  {
    StepFacts(lo, hi);
  }

  /** A position `u` lies between `floor(u)` and `floor(u) + 1` bin widths. */
  lemma FloorBin(u: real, step: real)
    requires 0.0 <= u && 0.0 < step
    ensures u.Floor as real * step <= u * step < (u.Floor + 1) as real * step
  {
    MulLeft(u.Floor as real, u, step);
    MulLeftStrict(u, (u.Floor + 1) as real, step);
  }

  /** The bins partition the range: a value lies in at most one bin. */
  lemma InBinUnique(v: real, e: seq<real>, b: nat, c: nat)
    requires |e| == Bins + 1 && StrictlyIncreasing(e) && b < Bins && c < Bins
    requires InBin(v, e, b) && InBin(v, e, c)
    ensures b == c
  {
  }

  /** Per-bin counts of the in-range values (`hist`), accumulated one value
      at a time; values outside [lo, hi] are dropped, as numpy does. */
  function Counts(vals: seq<real>, lo: real, hi: real): (c: seq<nat>)
    requires lo < hi
    ensures |c| == Bins
  {
    if |vals| == 0 then seq(Bins, _ => 0)
    else
      var c := Counts(vals[..|vals| - 1], lo, hi);
      var v := vals[|vals| - 1];
      if lo <= v <= hi then
        var b := BinOf(v, lo, hi);
        c[b := c[b] + 1]
      else c
  }

  function Total(c: seq<nat>): nat {
    if |c| == 0 then 0 else c[0] + Total(c[1..])
  }

  /** Reference count: the values lying in bin `b` of the edges `e`. */
  ghost function CountInBin(vals: seq<real>, e: seq<real>, b: nat): nat
    requires |e| == Bins + 1 && b < Bins
  {
    if |vals| == 0 then 0
    else CountInBin(vals[..|vals| - 1], e, b) + (if InBin(vals[|vals| - 1], e, b) then 1 else 0)
  }

  /** How many values lie in [lo, hi]. */
  function CountInRange(vals: seq<real>, lo: real, hi: real): nat {
    if |vals| == 0 then 0
    else CountInRange(vals[..|vals| - 1], lo, hi) + (if lo <= vals[|vals| - 1] <= hi then 1 else 0)
  }

  lemma {:induction false} TotalIncrement(c: seq<nat>, b: nat)
    requires b < |c|
    ensures Total(c[b := c[b] + 1]) == Total(c) + 1
    decreases |c|
  {
    var d := c[b := c[b] + 1];
    if b == 0 {
      assert d[1..] == c[1..];
    } else {
      assert d[1..] == c[1..][b - 1 := c[b] + 1];
      TotalIncrement(c[1..], b - 1);
    }
  }

  lemma {:induction false} TotalZeros(n: nat)
    ensures Total(seq(n, _ => 0)) == 0
  {
    if n > 0 {
      assert seq(n, _ => 0)[1..] == seq(n - 1, _ => 0);
      TotalZeros(n - 1);
    }
  }

  /** Count conservation: the bins together hold every in-range value once. */
  lemma {:induction false} CountsTotal(vals: seq<real>, lo: real, hi: real)
    requires lo < hi
    ensures Total(Counts(vals, lo, hi)) == CountInRange(vals, lo, hi)
    decreases |vals|
  {
    if |vals| == 0 {
      TotalZeros(Bins);
    } else {
      var v := vals[|vals| - 1];
      CountsTotal(vals[..|vals| - 1], lo, hi);
      if lo <= v <= hi {
        TotalIncrement(Counts(vals[..|vals| - 1], lo, hi), BinOf(v, lo, hi));
      }
    }
  }

  /** Each count is the number of values between that bin's edges. */
  lemma {:induction false} CountsMatchEdges(vals: seq<real>, lo: real, hi: real, b: nat)
    requires lo < hi && b < Bins
    ensures Counts(vals, lo, hi)[b] == CountInBin(vals, Edges(lo, hi), b)
    decreases |vals|
  {
    if |vals| > 0 {
      var e := Edges(lo, hi);
      var v := vals[|vals| - 1];
      CountsMatchEdges(vals[..|vals| - 1], lo, hi, b);
      if lo <= v <= hi {
        BinOfMatchesEdges(v, lo, hi);
        if InBin(v, e, b) {
          InBinUnique(v, e, b, BinOf(v, lo, hi));
        }
      } else {
        assert e[0] <= e[b] && e[b + 1] <= e[Bins];
      }
    }
  }

  /** With the default range every value is counted. */
  lemma {:induction false} CountInRangeAll(vals: seq<real>, lo: real, hi: real)
    requires forall v :: v in vals ==> lo <= v <= hi
    ensures CountInRange(vals, lo, hi) == |vals|
    decreases |vals|
  {
    if |vals| > 0 {
      var m := |vals| - 1;
      assert vals[m] in vals;
      forall v | v in vals[..m]
        ensures lo <= v <= hi
      {
        var i :| 0 <= i < m && vals[..m][i] == v;
        assert vals[i] in vals;
      }
      CountInRangeAll(vals[..|vals| - 1], lo, hi);
    }
  }
}

=== FILE: interpolation.dfy ===
/** One-dimensional piecewise-linear interpolation with clamped ends, as
    `np.interp(x, xp, fp)` computes it. */
module Interpolation {
  import opened Sorting

  ghost predicate StrictlyIncreasing(s: seq<real>) {
    forall i, j :: 0 <= i < j < |s| ==> s[i] < s[j]
  }

  /** The segment numpy's search settles on when started at `j`: the first
      `k >= j` whose right knot lies above `x`, or the last knot. */
  function Bracket(x: real, xp: seq<real>, j: nat): (k: nat)
    requires j < |xp|
    ensures j <= k < |xp|
    ensures k == |xp| - 1 || x < xp[k + 1]
    ensures forall i :: j < i <= k ==> xp[i] <= x
    decreases |xp| - j
  {
    if j == |xp| - 1 || x < xp[j + 1] then j else Bracket(x, xp, j + 1)
  }

  /** The straight line through (x0, y0) and (x1, y1), evaluated at `x`. */
  function Lerp(x: real, x0: real, x1: real, y0: real, y1: real): real
    requires x0 < x1
  {
    y0 + (x - x0) * (y1 - y0) / (x1 - x0)
  }

  /** `np.interp` at one point: the last value right of the last knot,
      `fp[0]` left of the first knot (numpy tests the right end first), and the line between the two knots that
      bracket `x` otherwise. */
  function Interp(x: real, xp: seq<real>, fp: seq<real>): (y: real)
    requires |xp| == |fp| > 0
    ensures x > xp[|xp| - 1] ==> y == fp[|fp| - 1]
    ensures x < xp[0] <= xp[|xp| - 1] ==> y == fp[0]
  {
    if x > xp[|xp| - 1] then fp[|fp| - 1]
    else if x < xp[0] then fp[0]
    else
      var k := Bracket(x, xp, 0);
      if k == |xp| - 1 then fp[k]
      else
        assert k == 0 || xp[k] <= x;
        Lerp(x, xp[k], xp[k + 1], fp[k], fp[k + 1])
  }

  /** Between its knots a rising line stays between its end values. */
  lemma LerpBetween(x: real, x0: real, x1: real, y0: real, y1: real)
    requires x0 <= x <= x1 && x0 < x1 && y0 <= y1
    ensures y0 <= Lerp(x, x0, x1, y0, y1) <= y1
  {
    var d := x1 - x0;
    var u := (x - x0) * (y1 - y0);
    assert 0.0 <= u <= d * (y1 - y0);
    assert u / d <= (d * (y1 - y0)) / d;
  }

  /** A rising line is non-decreasing in its argument. */
  lemma LerpMonotone(a: real, b: real, x0: real, x1: real, y0: real, y1: real)
    requires a <= b && x0 < x1 && y0 <= y1
    ensures Lerp(a, x0, x1, y0, y1) <= Lerp(b, x0, x1, y0, y1)
  {
    var d := x1 - x0;
    assert (a - x0) * (y1 - y0) <= (b - x0) * (y1 - y0);
    assert (a - x0) * (y1 - y0) / d <= (b - x0) * (y1 - y0) / d;
  }

  /** Inside the knot range, the interpolated value lies between the values
      at the two bracketing knots. */
  lemma InterpInSegment(x: real, xp: seq<real>, fp: seq<real>)
    requires |xp| == |fp| > 0 && Sorted(fp)
    requires xp[0] <= x <= xp[|xp| - 1]
    ensures var k := Bracket(x, xp, 0);
      && (k == |xp| - 1 ==> Interp(x, xp, fp) == fp[k])
      && (k < |xp| - 1 ==> fp[k] <= Interp(x, xp, fp) <= fp[k + 1])
  {
    var k := Bracket(x, xp, 0);
    if k < |xp| - 1 {
      assert k == 0 || xp[k] <= x;
      LerpBetween(x, xp[k], xp[k + 1], fp[k], fp[k + 1]);
    }
  }

  /** For non-decreasing values the interpolant never leaves
      [fp[0], fp[last]], whatever the knots. */
  lemma InterpBounds(x: real, xp: seq<real>, fp: seq<real>)
    requires |xp| == |fp| > 0 && Sorted(fp)
    ensures fp[0] <= Interp(x, xp, fp) <= fp[|fp| - 1]
  {
    if xp[0] <= x <= xp[|xp| - 1] {
      InterpInSegment(x, xp, fp);
    }
  }

  /** With non-decreasing knots and values, the interpolant is
      non-decreasing. */
  lemma InterpMonotone(x1: real, x2: real, xp: seq<real>, fp: seq<real>)
    requires |xp| == |fp| > 0 && Sorted(xp) && Sorted(fp)
    requires x1 <= x2
    ensures Interp(x1, xp, fp) <= Interp(x2, xp, fp)
  {
    InterpBounds(x1, xp, fp);
    InterpBounds(x2, xp, fp);
    var last := |xp| - 1;
    if x1 < xp[0] || x2 > xp[last] {
    } else {
      var k1 := Bracket(x1, xp, 0);
      var k2 := Bracket(x2, xp, 0);
      InterpInSegment(x1, xp, fp);
      InterpInSegment(x2, xp, fp);
      assert k1 <= k2;
      if k1 == k2 {
        if k1 < last {
          assert k1 == 0 || xp[k1] <= x1;
          LerpMonotone(x1, x2, xp[k1], xp[k1 + 1], fp[k1], fp[k1 + 1]);
        }
      } else {
        assert fp[k1 + 1] <= fp[k2];
      }
    }
  }

  /** With strictly increasing knots the interpolant passes through every
      knot: `np.interp(xp[i], xp, fp) == fp[i]`. */
  lemma InterpAtKnot(i: nat, xp: seq<real>, fp: seq<real>)
    requires |xp| == |fp| && i < |xp| && StrictlyIncreasing(xp)
    ensures Interp(xp[i], xp, fp) == fp[i]
  {
    var x := xp[i];
    var last := |xp| - 1;
    assert xp[0] <= x <= xp[last];
    var k := Bracket(x, xp, 0);
    assert k == 0 || xp[k] <= x;
    assert k == i;
  }

  /** The search never reaches the last knot when `x` lies below the
      second-to-last one, so that knot's value does not matter. */
  lemma {:induction false} BracketIgnoresLastKnot(x: real, xp: seq<real>, yp: seq<real>, j: nat)
    requires |xp| == |yp| >= 3 && j <= |xp| - 3
    requires forall i :: 0 <= i < |xp| - 1 ==> xp[i] == yp[i]
    requires x < xp[|xp| - 2]
    ensures Bracket(x, xp, j) == Bracket(x, yp, j) <= |xp| - 3
    decreases |xp| - j
  {
    if !(x < xp[j + 1]) {
      BracketIgnoresLastKnot(x, xp, yp, j + 1);
    }
  }

  /** Moving the last knot (to anywhere at or above `x`) leaves the
      interpolant unchanged at every `x` below the second-to-last knot. */
  lemma InterpIgnoresLastKnot(x: real, xp: seq<real>, yp: seq<real>, fp: seq<real>)
    requires |xp| == |yp| == |fp| >= 2
    requires forall i :: 0 <= i < |xp| - 1 ==> xp[i] == yp[i]
    requires x < xp[|xp| - 2] && x <= xp[|xp| - 1] && x <= yp[|yp| - 1]
    ensures Interp(x, xp, fp) == Interp(x, yp, fp)
  {
    if xp[0] <= x {
      BracketIgnoresLastKnot(x, xp, yp, 0);
    }
  }
}

=== FILE: probability.dfy ===
/** The unvalidated engine the tests exercise: no type or range checks, no
    length check before summing, and the PPF read straight off the
    interpolated curve. Its errors are the ones Python, numpy and scipy
    raise on their own. */
module Probability {
  import opened Config
  import opened Results
  import opened Sorting
  import opened Interpolation
  import opened Vectors
  import opened Shuffle
  import opened Empirical
  import opened Risks
  import Quantitative

  /** Builds the triangular distribution from its bounds and mode as given:
      nothing is checked, so the shape may fall outside [0, 1] and the scale
      may be negative. Equal bounds divide by zero. */
  function GetTriangularDistribution(a: Scalar, b: Scalar, c: Scalar): (r: Result<Triangular>)
    ensures (a.Other? || b.Other? || c.Other?) <==> r == Err(NonNumeric)
    ensures r == Err(ZeroDivision) <==> a.Number? && b.Number? && c.Number? && a.x == b.x
    ensures r.Ok? <==> a.Number? && b.Number? && c.Number? && a.x != b.x
    ensures r.Ok? ==> Describes(r.value, a.x, b.x, c.x)
  {
    if a.Other? || b.Other? || c.Other? then Err(NonNumeric)
    else
      var range := b.x - a.x;
      if range == 0.0 then Err(ZeroDivision)
      else
        var shape := (c.x - a.x) / range;
        assert shape * range == c.x - a.x;
        Ok(Triangular(shape, a.x, range))
  }

  /** The sample vector of one risk with no range check on `p`: a negative
      count of draws, or more draws than slots, fail inside numpy; a
      slightly negative `p` truncates to no draws at all. */
  function GetSamples(d: Triangular, p: Scalar, draws: seq<real>, choices: seq<int>): (r: Result<seq<real>>)
    requires |draws| == Iterations && ValidChoices(choices, Iterations)
    ensures p.Other? <==> r == Err(NonNumeric)
    ensures r == Err(InvalidShape) <==> p.Number? && !Drawable(d)
    ensures r == Err(NegativeSize) <==> p.Number? && Drawable(d) && Occurrences(p.x) < 0
    ensures r == Err(BroadcastMismatch) <==> p.Number? && Drawable(d) && Occurrences(p.x) > Iterations
    ensures r.Ok? <==> p.Number? && Drawable(d) && 0 <= Occurrences(p.x) <= Iterations
    ensures r.Ok? ==> (
      && p.Number? && 0 <= Occurrences(p.x) <= Iterations
      && |r.value| == Iterations
      && multiset(r.value)
        == multiset(draws[..Occurrences(p.x)]) + multiset(Zeros(Iterations - Occurrences(p.x))))
  {
    if p.Other? then Err(NonNumeric)
    else if !Drawable(d) then Err(InvalidShape)
    else
      var k := Occurrences(p.x);
      if k < 0 then Err(NegativeSize)
      else if k > Iterations then Err(BroadcastMismatch)
      else Ok(Shuffled(ZeroInflated(draws, k), choices))
  }

  /** What `np.add.reduce` returns: a vector, or the scalar identity 0.0
      when there is nothing to add. */
  datatype Reduced = Vector(v: seq<real>) | Scalar(x: real)

  /** Element-wise sum of sample vectors, with no length check of its own:
      an empty list sums to 0.0, and vectors of different lengths cannot be
      stacked into one array. */
  function SumSamples(sets: seq<seq<real>>): (r: Result<Reduced>)
    ensures |sets| == 0 <==> r == Ok(Scalar(0.0))
    ensures r == Err(RaggedVectors) <==> |sets| > 0 && !AllLength(sets, |sets[0]|)
    ensures r.Ok? <==> |sets| == 0 || AllLength(sets, |sets[0]|)
    ensures r.Ok? && |sets| > 0 ==> (
      && r.value.Vector? && |r.value.v| == |sets[0]|
      && forall i :: 0 <= i < |sets[0]| ==> r.value.v[i] == ColumnSum(sets, i))
  {
    if |sets| == 0 then Ok(Scalar(0.0))
    else if Quantitative.FirstMismatch(sets, |sets[0]|, 1).Some? then Err(RaggedVectors)
    else Ok(Vector(AddReduce(sets)))
  }

  /** The plain PPF: the interpolated cost at each grid percentile against
      knots `(i + 1) / n`. It is non-decreasing and runs from the smallest
      sample to the largest; no data divides by zero. */
  function GetEmpiricalPpf(data: seq<real>): (r: Result<PpfData>)
    ensures |data| == 0 <==> r == Err(ZeroDivision)
    ensures r.Ok? <==> |data| > 0
    ensures r.Ok? ==> (
      && r.value.p == Grid() && |r.value.cost| == GridSize
      && Sorted(r.value.cost)
      && r.value.cost[0] in data && r.value.cost[GridSize - 1] in data
      && forall v :: v in data ==> r.value.cost[0] <= v <= r.value.cost[GridSize - 1])
  {
    var n := |data|;
    if n == 0 then Err(ZeroDivision)
    else
      var xp := CumulativeProbs(n);
      var sorted := Sort(data);
      var cost := Curve(xp, sorted);
      SharesSorted(n);
      CurveOrdered(xp, data);
      CurveWithinData(xp, data);
      assert cost[0] == sorted[0] by {
        assert Grid()[0] < xp[0];
      }
      assert cost[GridSize - 1] == sorted[n - 1] by {
        InterpAtKnot(n - 1, xp, sorted);
      }
      Ok(PpfData(cost, Grid()))
  }

  /** At every grid percentile that is one of the knots, the plain PPF
      returns the sorted sample at that knot. */
  lemma PlainPpfAtKnots(data: seq<real>, k: nat, i: nat)
    requires k < GridSize && i < |data|
    requires Grid()[k] == Share(i, |data|)
    ensures GetEmpiricalPpf(data).Ok?
    ensures GetEmpiricalPpf(data).value.cost[k] == Sort(data)[i]
  {
    InterpAtKnot(i, CumulativeProbs(|data|), Sort(data));
  }

  /** The validated PPF's curve, before its lower-bound overwrite, agrees
      with the plain PPF at every grid percentile below the second-to-last
      knot: moving the top knot to 0.999 only changes the top of the
      curve. */
  lemma ValidatedMatchesPlainBelowTop(data: seq<real>, k: nat)
    requires k < GridSize && |data| >= 2
    requires Grid()[k] < Share(|data| - 2, |data|)
    ensures GetEmpiricalPpf(data).Ok?
    ensures Curve(Quantitative.TopClampedProbs(|data|), Sort(data))[k]
      == GetEmpiricalPpf(data).value.cost[k]
  {
    Quantitative.KnotMoveBelowTop(data, k);
    PlainPpfIsCurve(data);
  }

  lemma PlainPpfIsCurve(data: seq<real>)
    requires |data| > 0
    ensures GetEmpiricalPpf(data) == Ok(PpfData(Curve(CumulativeProbs(|data|), Sort(data)), Grid()))
  {
  }

  /** The sample vector of one risk, its costs `(a, c, b)` passed on as
      minimum `a`, maximum `b`, mode `c`. */
  function SampleRisk(risk: Risk, rand: Randomness): (r: Result<seq<real>>)
    requires ValidRandomness(rand)
    ensures r.Ok? ==> |r.value| == Iterations
    ensures r.Ok? <==> (
      && Quantitative.RiskDistribution(risk).Ok?
      && risk.probability.Number?
      && 0 <= Occurrences(risk.probability.x) <= Iterations)
  {
    var (a, c, b) := risk.costs;
    var d :- GetTriangularDistribution(a, b, c);
    RejectedShapes(a, b, c);
    GetSamples(d, risk.probability, rand.draws, rand.choices)
  }

  /** The outcome of the unvalidated `get_aggregate_data`: the vectors
      written into the risks' records, and what `np.add.reduce` returned or
      the error raised. */
  datatype Run = Run(stored: seq<seq<real>>, total: Result<Reduced>)

  /** Samples every risk in insertion order and sums the vectors. With no
      risks at all the sum is the scalar 0.0. */
  function GetAggregateData(risks: seq<Risk>, rands: seq<Randomness>): (run: Run)
    requires |rands| == |risks| && forall i :: 0 <= i < |rands| ==> ValidRandomness(rands[i])
    ensures |risks| == 0 ==> run.total == Ok(Scalar(0.0))
    ensures run.total.Ok? <==> forall i :: 0 <= i < |risks| ==> SampleRisk(risks[i], rands[i]).Ok?
    ensures |run.stored| <= |risks|
    ensures forall i :: 0 <= i < |run.stored| ==> SampleRisk(risks[i], rands[i]) == Ok(run.stored[i])
    ensures run.total.Ok? && |risks| > 0 ==> (
      && |run.stored| == |risks| && run.total.value.Vector? && |run.total.value.v| == Iterations
      && forall i :: 0 <= i < Iterations ==> run.total.value.v[i] == ColumnSum(run.stored, i))
    ensures run.total.Err? ==> (
      && |run.stored| < |risks|
      && SampleRisk(risks[|run.stored|], rands[|run.stored|]) == Err(run.total.error))
  {
    Aggregate(Outcomes(risks, rands))
  }

  /** Stores the vectors of the outcomes up to the first failure, and sums
      them when there is none. */
  function Aggregate(outcomes: seq<Result<seq<real>>>): (run: Run)
    requires forall i :: 0 <= i < |outcomes| && outcomes[i].Ok? ==> |outcomes[i].value| == Iterations
    ensures |outcomes| == 0 ==> run.total == Ok(Scalar(0.0))
    ensures run.total.Ok? <==> forall i :: 0 <= i < |outcomes| ==> outcomes[i].Ok?
    ensures |run.stored| <= |outcomes|
    ensures forall i :: 0 <= i < |run.stored| ==> outcomes[i] == Ok(run.stored[i])
    ensures run.total.Ok? && |outcomes| > 0 ==> (
      && |run.stored| == |outcomes| && run.total.value.Vector? && |run.total.value.v| == Iterations
      && forall i :: 0 <= i < Iterations ==> run.total.value.v[i] == ColumnSum(run.stored, i))
    ensures run.total.Err? ==> (
      && |run.stored| < |outcomes|
      && outcomes[|run.stored|] == Err(run.total.error))
  {
    var (stored, failure) := Collect(outcomes);
    match failure
    case Some(e) => Run(stored, Err(e))
    case None =>
      assert forall i :: 0 <= i < |outcomes| ==> outcomes[i] == Ok(stored[i]);
      assert AllLength(stored, Iterations);
      Run(stored, SumSamples(stored))
  }

  /** The outcome of sampling each risk with its own random inputs. */
  function Outcomes(risks: seq<Risk>, rands: seq<Randomness>): (rs: seq<Result<seq<real>>>)
    requires |rands| == |risks| && forall i :: 0 <= i < |rands| ==> ValidRandomness(rands[i])
    ensures |rs| == |risks|
    ensures forall i :: 0 <= i < |risks| ==> rs[i] == SampleRisk(risks[i], rands[i])
    ensures forall i :: 0 <= i < |risks| && rs[i].Ok? ==> |rs[i].value| == Iterations
  {
    seq(|risks|, i requires 0 <= i < |risks| => SampleRisk(risks[i], rands[i]))
  }

  /** Both versions build the same distribution from valid arguments. */
  lemma TriangularAgrees(a: Scalar, b: Scalar, c: Scalar)
    requires Quantitative.GetTriangularDistribution(a, b, c).Ok?
    ensures GetTriangularDistribution(a, b, c) == Quantitative.GetTriangularDistribution(a, b, c)
  {
  }

  /** The unvalidated distribution can be drawn from exactly when the
      validated construction accepts the same arguments: the check the
      validated version makes up front is the one scipy makes at the draw. */
  lemma RejectedShapes(a: Scalar, b: Scalar, c: Scalar)
    requires GetTriangularDistribution(a, b, c).Ok?
    ensures Drawable(GetTriangularDistribution(a, b, c).value)
      <==> Quantitative.GetTriangularDistribution(a, b, c).Ok?
  {
    var d := GetTriangularDistribution(a, b, c).value;
    if a.x < b.x {
      assert d.shape == (c.x - a.x) / (b.x - a.x);
      ShapeInUnit(a.x, b.x, c.x);
    }
  }

  /** With increasing bounds, the shape `(mode - lo) / (hi - lo)` lies in
      [0, 1] exactly when the mode lies between the bounds. */
  lemma ShapeInUnit(lo: real, hi: real, mode: real)
    requires lo < hi
    ensures 0.0 <= (mode - lo) / (hi - lo) <= 1.0 <==> lo <= mode <= hi
  {
    var w := hi - lo;
    assert w / w == 1.0;
    if mode < lo {
      DivideMono(mode - lo, 0.0, w);
    } else if hi < mode {
      DivideMono(w, mode - lo, w);
    } else {
      DivideMono(0.0, mode - lo, w);
      DivideMono(mode - lo, w, w);
    }
  }

  /** On a probability in [0, 1] and a drawable distribution both versions
      build the same vector from the same random inputs. */
  lemma SamplesAgree(d: Triangular, p: Scalar, draws: seq<real>, choices: seq<int>)
    requires |draws| == Iterations && ValidChoices(choices, Iterations)
    requires Drawable(d) && p.Number? && 0.0 <= p.x <= 1.0
    ensures GetSamples(d, p, draws, choices) == Quantitative.GetSamples(d, p, draws, choices)
  {
    assert Iterations as real * p.x <= Iterations as real;
  }

  /** A probability a hair above 1 slips through the unvalidated version,
      which draws in every slot, while the validated version rejects it. */
  lemma ProbabilityAboveOne(d: Triangular, draws: seq<real>, choices: seq<int>)
    requires |draws| == Iterations && ValidChoices(choices, Iterations) && Drawable(d)
    ensures Occurrences(1.000001) == Iterations
    ensures GetSamples(d, Number(1.000001), draws, choices).Ok?
    ensures multiset(GetSamples(d, Number(1.000001), draws, choices).value) == multiset(draws)
    ensures Quantitative.GetSamples(d, Number(1.000001), draws, choices)
      == Err(ProbabilityOutOfRange(1.000001))
  {
    assert draws[..Iterations] == draws;
  }

  /** A probability a hair below 0 truncates toward zero: the unvalidated
      vector is all zeros, while the validated version rejects it. */
  lemma ProbabilityBelowZero(d: Triangular, draws: seq<real>, choices: seq<int>)
    requires |draws| == Iterations && ValidChoices(choices, Iterations) && Drawable(d)
    ensures Occurrences(-0.000001) == 0
    ensures GetSamples(d, Number(-0.000001), draws, choices).Ok?
    ensures multiset(GetSamples(d, Number(-0.000001), draws, choices).value)[0.0] == Iterations
    ensures Quantitative.GetSamples(d, Number(-0.000001), draws, choices)
      == Err(ProbabilityOutOfRange(-0.000001))
  {
  }

  /** On a nonempty list of equal-length vectors both versions compute the
      same sum; they part ways only on the empty list (0.0 against an
      IndexError) and on unequal lengths (which element the error names). */
  lemma SumSamplesAgree(sets: seq<seq<real>>)
    requires |sets| > 0 && AllLength(sets, |sets[0]|)
    ensures SumSamples(sets) == Ok(Vector(Quantitative.SumSamples(sets).total.value))
  {
  }

  /** When every risk is valid the two runners store the same vectors and
      compute the same total. */
  lemma AggregateAgrees(risks: seq<Risk>, rands: seq<Randomness>)
    requires |rands| == |risks| > 0 && forall i :: 0 <= i < |rands| ==> ValidRandomness(rands[i])
    requires forall i :: 0 <= i < |risks| ==> Quantitative.SampleRisk(risks[i], rands[i]).Ok?
    ensures GetAggregateData(risks, rands).stored == Quantitative.GetAggregateData(risks, rands).stored
    ensures GetAggregateData(risks, rands).total
      == Ok(Vector(Quantitative.GetAggregateData(risks, rands).total.value))
  {
    var mine := Outcomes(risks, rands);
    var theirs := Quantitative.Outcomes(risks, rands);
    forall i | 0 <= i < |risks|
      ensures mine[i] == theirs[i]
    {
      SampleRiskAgrees(risks[i], rands[i]);
    }
    assert mine == theirs;
    var stored := Collect(theirs).0;
    assert forall i :: 0 <= i < |risks| ==> theirs[i].Ok?;
    assert |stored| == |risks|;
    assert AllLength(stored, |stored[0]|) by {
      assert forall i :: 0 <= i < |stored| ==> theirs[i] == Ok(stored[i]);
    }
    SumSamplesAgree(stored);
  }

  /** A valid risk yields the same vector under both versions. */
  lemma SampleRiskAgrees(risk: Risk, rand: Randomness)
    requires ValidRandomness(rand) && Quantitative.SampleRisk(risk, rand).Ok?
    ensures SampleRisk(risk, rand) == Quantitative.SampleRisk(risk, rand)
  {
    var (a, c, b) := risk.costs;
    TriangularAgrees(a, b, c);
    SamplesAgree(GetTriangularDistribution(a, b, c).value, risk.probability, rand.draws, rand.choices);
  }
}

=== FILE: quantitative.dfy ===
/** The validated engine: parameter checks, the length check on summed
    vectors, and the PPF with its 0.999 top knot and lower-bound entry. */
module Quantitative {
  import opened Config
  import opened Results
  import opened Sorting
  import opened Interpolation
  import opened Vectors
  import opened Shuffle
  import opened Empirical
  import opened Risks

  /** Builds the triangular distribution on [a, b] with mode c, rejecting
      non-numbers and a mode outside the bounds. Equal bounds divide by zero. */
  function GetTriangularDistribution(a: Scalar, b: Scalar, c: Scalar): (r: Result<Triangular>)
    ensures (a.Other? || b.Other? || c.Other?) <==> r == Err(NonNumeric)
    ensures r.Err? && r.error.ModeOutOfRange? <==>
      a.Number? && b.Number? && c.Number? && !(a.x <= c.x <= b.x)
    ensures r.Err? && r.error.ModeOutOfRange? ==> r.error == ModeOutOfRange(c.x, a.x, b.x)
    ensures r == Err(ZeroDivision) <==>
      a.Number? && b.Number? && c.Number? && a.x <= c.x <= b.x && a.x == b.x
    ensures r.Ok? <==> a.Number? && b.Number? && c.Number? && a.x <= c.x <= b.x && a.x < b.x
    ensures r.Ok? ==> Describes(r.value, a.x, b.x, c.x)
    ensures r.Ok? ==> 0.0 <= r.value.shape <= 1.0 && r.value.scale > 0.0
  {
    if a.Other? || b.Other? || c.Other? then Err(NonNumeric)
    else if !(a.x <= c.x <= b.x) then Err(ModeOutOfRange(c.x, a.x, b.x))
    else
      var range := b.x - a.x;
      if range == 0.0 then Err(ZeroDivision)
      else
        var shape := (c.x - a.x) / range;
        assert shape * range == c.x - a.x;
        assert shape <= 1.0 by {
          assert (c.x - a.x) / range <= range / range;
        }
        Ok(Triangular(shape, a.x, range))
  }

  /** The sample vector of one risk: `floor(ITERATIONS * p)` draws from `d`
      and zeros elsewhere, shuffled. scipy refuses a distribution it cannot
      draw from when `rvs` is called, after the checks on `p`, even for zero
      draws. */
  function GetSamples(d: Triangular, p: Scalar, draws: seq<real>, choices: seq<int>): (r: Result<seq<real>>)
    requires |draws| == Iterations && ValidChoices(choices, Iterations)
    ensures p.Other? <==> r == Err(NonNumeric)
    ensures r.Err? && r.error.ProbabilityOutOfRange? <==> p.Number? && !(0.0 <= p.x <= 1.0)
    ensures r.Err? && r.error.ProbabilityOutOfRange? ==> r.error == ProbabilityOutOfRange(p.x)
    ensures r == Err(InvalidShape) <==> p.Number? && 0.0 <= p.x <= 1.0 && !Drawable(d)
    ensures r.Ok? <==> p.Number? && 0.0 <= p.x <= 1.0 && Drawable(d)
    ensures r.Ok? ==> 0 <= Occurrences(p.x) <= Iterations
    ensures r.Ok? ==> |r.value| == Iterations
    ensures r.Ok? ==> (multiset(r.value)
      == multiset(draws[..Occurrences(p.x)]) + multiset(Zeros(Iterations - Occurrences(p.x))))
  {
    if p.Other? then Err(NonNumeric)
    else if !(0.0 <= p.x <= 1.0) then Err(ProbabilityOutOfRange(p.x))
    else if !Drawable(d) then Err(InvalidShape)
    else
      var k := Occurrences(p.x);
      assert k <= Iterations by {
        assert Iterations as real * p.x <= Iterations as real;
      }
      Ok(Shuffled(ZeroInflated(draws, k), choices))
  }

  /** The first position `j >= from` whose vector's length differs from
      `n`, if any. */
  function FirstMismatch(sets: seq<seq<real>>, n: nat, from: nat): (j: Option<nat>)
    requires from <= |sets|
    ensures j.None? <==> forall i :: from <= i < |sets| ==> |sets[i]| == n
    ensures j.Some? ==> from <= j.value < |sets| && |sets[j.value]| != n
    ensures j.Some? ==> forall i :: from <= i < j.value ==> |sets[i]| == n
    decreases |sets| - from
  {
    if from == |sets| then None
    else if |sets[from]| != n then Some(from)
    else FirstMismatch(sets, n, from + 1)
  }

  /** The outcome of `sum_samples`: whether it warned, and the sum or the
      error it raised. */
  datatype Summed = Summed(warned: bool, total: Result<seq<real>>)

  /** Element-wise sum of sample vectors. Warns (without failing) when some
      vector's length is not `ITERATIONS`; fails on the empty list and on
      the first vector whose length differs from the first vector's. */
  function SumSamples(sets: seq<seq<real>>): (s: Summed)
    ensures s.warned <==> exists j :: 0 <= j < |sets| && |sets[j]| != Iterations
    ensures |sets| == 0 ==> s.total == Err(IndexOutOfRange)
    ensures s.total.Ok? <==> |sets| > 0 && AllLength(sets, |sets[0]|)
    ensures s.total.Err? && |sets| > 0 ==> (
      && s.total.error.LengthMismatch?
      && var j := s.total.error.index;
      && 1 <= j < |sets| && |sets[j]| != |sets[0]|
      && forall i :: 0 <= i < j ==> |sets[i]| == |sets[0]|)
    ensures s.total.Ok? ==> (
      && |s.total.value| == |sets[0]|
      && forall i :: 0 <= i < |sets[0]| ==> s.total.value[i] == ColumnSum(sets, i))
  {
    var warned := exists j :: 0 <= j < |sets| && |sets[j]| != Iterations;
    if |sets| == 0 then Summed(warned, Err(IndexOutOfRange))
    else
      match FirstMismatch(sets, |sets[0]|, 1)
      case Some(j) => Summed(warned, Err(LengthMismatch(j)))
      case None => Summed(warned, Ok(AddReduce(sets)))
  }

  /** `np.linspace(0, 1, n, endpoint=False) + 1 / n` with its last entry
      overwritten by 0.999. */
  function TopClampedProbs(n: nat): (xp: seq<real>)
    requires n > 0
    ensures |xp| == n && xp[n - 1] == 0.999
    ensures forall i :: 0 <= i < n - 1 ==> xp[i] == Share(i, n)
  {
    CumulativeProbs(n)[n - 1 := 0.999]
  }

  /** The entry the lower bound is written to: one before the number of zero
      costs, read the Python way, so that no zeros means the last entry. */
  function LowerBoundIndex(cost: seq<real>): (idx: nat)
    requires |cost| == GridSize
    ensures idx < GridSize
    ensures multiset(cost)[0.0] == 0 ==> idx == GridSize - 1
    ensures multiset(cost)[0.0] > 0 ==> idx == multiset(cost)[0.0] - 1
  {
    assert multiset(cost)[0.0] <= |multiset(cost)| == |cost|;
    var i := multiset(cost)[0.0] as int - 1;
    if i < 0 then GridSize + i else i
  }

  /** The validated PPF: the interpolated cost at each grid percentile
      against knots `(i + 1) / n` whose last is moved to 0.999, with the
      lower-bound entry set to the smallest nonzero sample. */
  function GetEmpiricalPpf(samples: seq<real>): (r: Result<PpfData>)
    ensures |samples| == 0 ==> r == Err(ZeroDivision)
    ensures r.Err? <==> forall i :: 0 <= i < |samples| ==> samples[i] == 0.0
    ensures |samples| > 0 && r.Err? ==> r.error == EmptyMinimum
    ensures r.Ok? ==> r.value.p == Grid() && |r.value.cost| == GridSize
    ensures r.Ok? ==>
      var curve := Curve(TopClampedProbs(|samples|), Sort(samples));
      var idx := LowerBoundIndex(curve);
      && (forall k :: 0 <= k < GridSize && k != idx ==> r.value.cost[k] == curve[k])
      && r.value.cost[idx] != 0.0 && r.value.cost[idx] in samples
      && (forall v :: v in samples && v != 0.0 ==> r.value.cost[idx] <= v)
  {
    var n := |samples|;
    if n == 0 then Err(ZeroDivision)
    else
      var curve := Curve(TopClampedProbs(n), Sort(samples));
      var idx := LowerBoundIndex(curve);
      match MinNonzero(samples)
      case None => Err(EmptyMinimum)
      case Some(m) =>
        Ok(PpfData(Overwrite(curve, idx, m), Grid()))
  }

  /** `cost[idx] = m`: one entry replaced, the others kept. */
  function Overwrite(cost: seq<real>, idx: nat, m: real): (r: seq<real>)
    requires idx < |cost|
    ensures |r| == |cost| && r[idx] == m
    ensures forall k :: 0 <= k < |cost| && k != idx ==> r[k] == cost[k]
  {
    cost[idx := m]
  }

  /** The grid position holding exactly `pv` (`np.where(p == p_value)`),
      searched from `from`. */
  function GridIndex(pv: real, from: nat): (k: Option<nat>)
    requires from <= GridSize
    ensures k.None? <==> forall j :: from <= j < GridSize ==> Grid()[j] != pv
    ensures k.Some? ==> from <= k.value < GridSize && Grid()[k.value] == pv
    decreases GridSize - from
  {
    if from == GridSize then None
    else if Grid()[from] == pv then Some(from)
    else GridIndex(pv, from + 1)
  }

  /** `np.rint`: the integer nearest to `y`, a tie going to the even one. */
  function RoundHalfEven(y: real): (m: int)
    ensures -0.5 <= y - m as real <= 0.5
    ensures (y - m as real == 0.5 || m as real - y == 0.5) ==> m % 2 == 0
  {
    var f := y.Floor;
    var d := y - f as real;
    if d < 0.5 then f
    else if d > 0.5 then f + 1
    else if f % 2 == 0 then f
    else f + 1
  }

  /** Rounding picks the one integer closer than a half, and keeps an
      integer as it is. */
  lemma RoundNearest(y: real, m: int)
    requires -0.5 < y - m as real < 0.5
    ensures RoundHalfEven(y) == m
  {
    var r := RoundHalfEven(y);
    assert -1.0 < r as real - m as real < 1.0;
  }

  /** `.round(2)` on a float: the nearest whole number of cents, a tie going
      to the even count of cents. */
  function RoundCents(x: real): (r: real)
    ensures -0.005 <= r - x <= 0.005
    ensures (r * 100.0).Floor as real == r * 100.0
    ensures r - x == 0.005 || x - r == 0.005 ==> (r * 100.0).Floor % 2 == 0
  {
    var c := RoundHalfEven(x * 100.0);
    var r := c as real / 100.0;
    assert r * 100.0 == c as real && (r * 100.0).Floor == c;
    assert r - x == 0.005 ==> c as real - x * 100.0 == 0.5;
    assert x - r == 0.005 ==> x * 100.0 - c as real == 0.5;
    r
  }

  /** A whole number of cents is left unchanged, so rounding twice is
      rounding once. */
  lemma RoundCentsKeepsCents(x: real)
    requires (x * 100.0).Floor as real == x * 100.0
    ensures RoundCents(x) == x
  {
    RoundNearest(x * 100.0, (x * 100.0).Floor);
  }

  lemma RoundCentsIdempotent(x: real)
    ensures RoundCents(RoundCents(x)) == RoundCents(x)
  {
    RoundCentsKeepsCents(RoundCents(x));
  }

  /** The PPF cost at the grid percentile `pv`, rounded to cents; an
      IndexError when `pv` is not one of the 101 grid points. */
  function GetPValue(data: seq<real>, pv: real): (r: Result<real>)
    ensures var ppf := GetEmpiricalPpf(data);
      ppf.Err? ==> r == Err(ppf.error)
    ensures var ppf := GetEmpiricalPpf(data);
      ppf.Ok? ==> (r.Err? <==> forall k :: 0 <= k < GridSize ==> Grid()[k] != pv)
    ensures var ppf := GetEmpiricalPpf(data);
      ppf.Ok? && r.Err? ==> r.error == IndexOutOfRange
    ensures var ppf := GetEmpiricalPpf(data);
      r.Ok? ==> ppf.Ok? && exists k :: 0 <= k < GridSize && Grid()[k] == pv && r.value == RoundCents(ppf.value.cost[k])
  {
    var ppf :- GetEmpiricalPpf(data);
    match GridIndex(pv, 0)
    case None => Err(IndexOutOfRange)
    case Some(k) => Ok(RoundCents(ppf.cost[k]))
  }

  /** The distribution of one risk: its costs `(a, c, b)` are passed on as
      minimum `a`, maximum `b`, mode `c`. */
  function RiskDistribution(risk: Risk): (r: Result<Triangular>)
    ensures r.Ok? <==> (
      && risk.costs.0.Number? && risk.costs.1.Number? && risk.costs.2.Number?
      && risk.costs.0.x <= risk.costs.1.x <= risk.costs.2.x
      && risk.costs.0.x < risk.costs.2.x)
    ensures r.Ok? ==> (
      && risk.costs.0.Number? && risk.costs.1.Number? && risk.costs.2.Number?
      && Describes(r.value, risk.costs.0.x, risk.costs.2.x, risk.costs.1.x))
    ensures r.Ok? ==> Drawable(r.value)
  {
    var (a, c, b) := risk.costs;
    GetTriangularDistribution(a, b, c)
  }

  /** The sample vector of one risk, or the first error its processing
      raises. */
  function SampleRisk(risk: Risk, rand: Randomness): (r: Result<seq<real>>)
    requires ValidRandomness(rand)
    ensures r.Ok? <==> (
      && RiskDistribution(risk).Ok?
      && risk.probability.Number? && 0.0 <= risk.probability.x <= 1.0)
    ensures r.Ok? ==> |r.value| == Iterations
  {
    var d :- RiskDistribution(risk);
    GetSamples(d, risk.probability, rand.draws, rand.choices)
  }

  /** The outcome of `get_aggregate_data`: the vectors written into the
      risks' records, and the aggregate vector or the error raised. */
  datatype Run = Run(stored: seq<seq<real>>, total: Result<seq<real>>)

  /** Samples every risk in insertion order and sums the vectors. Any
      invalid risk fails the whole run, after the risks before it have had
      their samples stored. */
  function GetAggregateData(risks: seq<Risk>, rands: seq<Randomness>): (run: Run)
    requires |rands| == |risks| && forall i :: 0 <= i < |rands| ==> ValidRandomness(rands[i])
    ensures |risks| == 0 ==> run.total == Err(IndexOutOfRange)
    ensures run.total.Ok? <==> |risks| > 0 && forall i :: 0 <= i < |risks| ==> SampleRisk(risks[i], rands[i]).Ok?
    ensures |run.stored| <= |risks|
    ensures forall i :: 0 <= i < |run.stored| ==> SampleRisk(risks[i], rands[i]) == Ok(run.stored[i])
    ensures run.total.Ok? ==> (
      && |run.stored| == |risks| && |run.total.value| == Iterations
      && forall i :: 0 <= i < Iterations ==> run.total.value[i] == ColumnSum(run.stored, i))
    ensures run.total.Err? && |run.stored| < |risks| ==>
      SampleRisk(risks[|run.stored|], rands[|run.stored|]) == Err(run.total.error)
  {
    var outcomes := Outcomes(risks, rands);
    var run := Aggregate(outcomes);
    assert forall i :: 0 <= i < |run.stored| ==> SampleRisk(risks[i], rands[i]) == Ok(run.stored[i]) by {
      forall i | 0 <= i < |run.stored|
        ensures SampleRisk(risks[i], rands[i]) == Ok(run.stored[i])
      {
        assert outcomes[i] == Ok(run.stored[i]);
      }
    }
    run
  }

  /** Stores the vectors of the outcomes up to the first failure, and sums
      them when there is none. */
  function Aggregate(outcomes: seq<Result<seq<real>>>): (run: Run)
    requires forall i :: 0 <= i < |outcomes| && outcomes[i].Ok? ==> |outcomes[i].value| == Iterations
    ensures |outcomes| == 0 ==> run.total == Err(IndexOutOfRange)
    ensures run.total.Ok? <==> |outcomes| > 0 && forall i :: 0 <= i < |outcomes| ==> outcomes[i].Ok?
    ensures |run.stored| <= |outcomes|
    ensures forall i :: 0 <= i < |run.stored| ==> outcomes[i] == Ok(run.stored[i])
    ensures run.total.Ok? ==> (
      && |run.stored| == |outcomes| && |run.total.value| == Iterations
      && forall i :: 0 <= i < Iterations ==> run.total.value[i] == ColumnSum(run.stored, i))
    ensures run.total.Err? && |run.stored| < |outcomes| ==>
      outcomes[|run.stored|] == Err(run.total.error)
  {
    var (stored, failure) := Collect(outcomes);
    match failure
    case Some(e) => Run(stored, Err(e))
    case None =>
      assert forall i :: 0 <= i < |outcomes| ==> outcomes[i] == Ok(stored[i]);
      assert AllLength(stored, Iterations);
      Run(stored, SumSamples(stored).total)
  }

  /** The outcome of sampling each risk with its own random inputs. */
  function Outcomes(risks: seq<Risk>, rands: seq<Randomness>): (rs: seq<Result<seq<real>>>)
    requires |rands| == |risks| && forall i :: 0 <= i < |rands| ==> ValidRandomness(rands[i])
    ensures |rs| == |risks|
    ensures forall i :: 0 <= i < |risks| ==> rs[i] == SampleRisk(risks[i], rands[i])
    ensures forall i :: 0 <= i < |risks| && rs[i].Ok? ==> |rs[i].value| == Iterations
  {
    seq(|risks|, i requires 0 <= i < |risks| => SampleRisk(risks[i], rands[i]))
  }

  /** Up to 1000 samples, moving the top knot to 0.999 keeps the knots in
      order: every other knot is at most (n - 1) / n <= 0.999. */
  lemma TopClampedProbsOrdered(n: nat)
    requires 0 < n <= 1000
    ensures Sorted(TopClampedProbs(n))
  {
    var xp := TopClampedProbs(n);
    ShareFacts(n);
    forall i, j | 0 <= i <= j < n
      ensures xp[i] <= xp[j]
    {
      if j == n - 1 && i < n - 1 {
        ShareBelowTop(i, n);
      }
    }
  }

  /** Up to 1000 samples every share but the last is at most 0.999. */
  lemma ShareBelowTop(i: nat, n: nat)
    requires i < n - 1 && n <= 1000
    ensures Share(i, n) <= 0.999
  {
    var x := n as real;
    DivideMono((i + 1) as real, (n - 1) as real, x);
    assert (n - 1) as real <= 0.999 * x;
    DivideMono((n - 1) as real, 0.999 * x, x);
    assert 0.999 * x / x == 0.999;
  }

  /** Beyond 1000 samples the knots are out of order: the second-to-last,
      (n - 1) / n, lies above the moved last knot 0.999. */
  lemma TopClampedProbsDisordered(n: nat)
    requires n > 1000
    ensures TopClampedProbs(n)[n - 2] > TopClampedProbs(n)[n - 1]
  {
    assert 0.999 * n as real < (n - 1) as real;
    DivideMono(0.999 * n as real, (n - 1) as real, n as real);
  }

  /** Moving the top knot from 1 to 0.999 leaves the curve unchanged at
      every grid percentile below the second-to-last knot. */
  lemma KnotMoveBelowTop(data: seq<real>, k: nat)
    requires k < GridSize && |data| >= 2
    requires Grid()[k] < Share(|data| - 2, |data|)
    ensures Curve(TopClampedProbs(|data|), Sort(data))[k]
      == Curve(CumulativeProbs(|data|), Sort(data))[k]
  {
    TopKnotMoveAt(Sort(data), k);
  }

  lemma TopKnotMoveAt(sorted: seq<real>, k: nat)
    requires k < GridSize && |sorted| >= 2
    requires Grid()[k] < Share(|sorted| - 2, |sorted|)
    ensures Curve(TopClampedProbs(|sorted|), sorted)[k] == Curve(CumulativeProbs(|sorted|), sorted)[k]
  {
    KnotsBelowTopAgree(|sorted|, k);
    CurveIgnoresLastKnot(CumulativeProbs(|sorted|), TopClampedProbs(|sorted|), sorted, k);
  }

  /** A grid percentile below the second-to-last knot is at most 0.99. */
  lemma GridBelowTop(k: nat, n: nat)
    requires k < GridSize && n >= 2 && Grid()[k] < Share(n - 2, n)
    ensures Grid()[k] <= 0.99
  {
    ShareBounds(n - 2, n);
  }

  /** Only the top knot differs between the plain and the validated knots,
      and a grid percentile below the second-to-last knot lies below or at
      every knot from there on in both. */
  lemma KnotsBelowTopAgree(n: nat, k: nat)
    requires n >= 2 && k < GridSize && Grid()[k] < Share(n - 2, n)
    ensures |CumulativeProbs(n)| == |TopClampedProbs(n)| == n
    ensures forall i :: 0 <= i < n - 1 ==> CumulativeProbs(n)[i] == TopClampedProbs(n)[i]
    ensures Grid()[k] < CumulativeProbs(n)[n - 2]
    ensures Grid()[k] <= CumulativeProbs(n)[n - 1] && Grid()[k] <= TopClampedProbs(n)[n - 1]
  {
    GridBelowTop(k, n);
  }

  /** The interpolated curve, before the lower-bound overwrite, is
      non-decreasing for any number of samples. Up to 1000 samples the knots
      themselves are in order. Beyond that only the top knot is out of
      order, and it matters only at percentile 1.00, where the curve
      reaches the largest sample. */
  lemma ValidatedCurveOrdered(samples: seq<real>)
    requires 0 < |samples|
    ensures Sorted(Curve(TopClampedProbs(|samples|), Sort(samples)))
  {
    if |samples| <= 1000 {
      TopClampedProbsOrdered(|samples|);
      CurveOrdered(TopClampedProbs(|samples|), samples);
    } else {
      ManySamplesCurveOrdered(samples);
    }
  }

  /** Beyond 1000 samples the curve agrees with the plain, non-decreasing
      curve below percentile 1.00, and ends at the largest sample. */
  lemma ManySamplesCurveOrdered(samples: seq<real>)
    requires |samples| > 1000
    ensures Sorted(Curve(TopClampedProbs(|samples|), Sort(samples)))
  {
    var n := |samples|;
    var curve := Curve(TopClampedProbs(n), Sort(samples));
    var plain := Curve(CumulativeProbs(n), Sort(samples));
    assert Sorted(plain) by {
      SharesSorted(n);
      CurveOrdered(CumulativeProbs(n), samples);
    }
    assert forall k :: 0 <= k < GridSize - 1 ==> curve[k] == plain[k] by {
      forall k | 0 <= k < GridSize - 1
        ensures curve[k] == plain[k]
      {
        ManySamplesBelowTop(samples, k);
      }
    }
    ManySamplesAtTop(samples);
    OrderedBelowTop(curve, plain);
  }

  /** A sequence that agrees with a non-decreasing one everywhere but at
      its last entry, and whose last entry is its largest, is non-decreasing. */
  lemma OrderedBelowTop(s: seq<real>, t: seq<real>)
    requires |s| == |t| > 0 && Sorted(t)
    requires forall k :: 0 <= k < |s| - 1 ==> s[k] == t[k]
    requires forall k :: 0 <= k < |s| ==> s[k] <= s[|s| - 1]
    ensures Sorted(s)
  {
    forall i, j | 0 <= i <= j < |s|
      ensures s[i] <= s[j]
    {
      if j < |s| - 1 {
        assert t[i] <= t[j];
      }
    }
  }

  /** Beyond 1000 samples every grid percentile below 1.00 lies below the
      second-to-last knot, where the moved top knot makes no difference. */
  lemma ManySamplesBelowTop(samples: seq<real>, k: nat)
    requires |samples| > 1000 && k < GridSize - 1
    ensures Curve(TopClampedProbs(|samples|), Sort(samples))[k]
      == Curve(CumulativeProbs(|samples|), Sort(samples))[k]
  {
    var n := |samples|;
    assert 0.999 < Share(n - 2, n) by {
      TopClampedProbsDisordered(n);
    }
    assert Grid()[k] <= 0.99;
    KnotMoveBelowTop(samples, k);
  }

  /** Percentile 1.00 lies right of the top knot 0.999, so the curve ends
      at the largest sample, above every other entry. */
  lemma ManySamplesAtTop(samples: seq<real>)
    requires |samples| > 0
    ensures var curve := Curve(TopClampedProbs(|samples|), Sort(samples));
      forall k :: 0 <= k < GridSize ==> curve[k] <= curve[GridSize - 1]
  {
    var n := |samples|;
    var xp := TopClampedProbs(n);
    assert Grid()[GridSize - 1] > xp[n - 1];
    CurveWithinData(xp, samples);
  }

  /** With some nonzero sample the PPF is the curve with the lower-bound
      entry replaced by the smallest nonzero sample. */
  lemma PpfUnfolds(samples: seq<real>)
    requires exists i :: 0 <= i < |samples| && samples[i] != 0.0
    ensures |samples| > 0 && MinNonzero(samples).Some?
    ensures var curve := Curve(TopClampedProbs(|samples|), Sort(samples));
      GetEmpiricalPpf(samples)
        == Ok(PpfData(curve[LowerBoundIndex(curve) := MinNonzero(samples).value], Grid()))
  {
    var curve := Curve(TopClampedProbs(|samples|), Sort(samples));
    var idx := LowerBoundIndex(curve);
    var m := MinNonzero(samples).value;
    assert Overwrite(curve, idx, m) == curve[idx := m];
  }

  /** For non-negative samples, some zero and some not,
      the lower bound overwrites the last zero of the curve: afterwards the
      costs are zero exactly below the lower-bound entry, which is positive. */
  lemma LowerBoundFollowsZeros(samples: seq<real>)
    requires 0 < |samples|
    requires forall i :: 0 <= i < |samples| ==> 0.0 <= samples[i]
    requires exists i :: 0 <= i < |samples| && samples[i] != 0.0
    requires exists i :: 0 <= i < |samples| && samples[i] == 0.0
    ensures GetEmpiricalPpf(samples).Ok?
    ensures var cost := GetEmpiricalPpf(samples).value.cost;
      var idx := LowerBoundIndex(Curve(TopClampedProbs(|samples|), Sort(samples)));
      && 0.0 < cost[idx]
      && forall k :: 0 <= k < GridSize ==> (cost[k] == 0.0 <==> k < idx)
  {
    var curve := Curve(TopClampedProbs(|samples|), Sort(samples));
    var idx := LowerBoundIndex(curve);
    assert multiset(curve)[0.0] > 0 by {
      CurveStartsAtMinimum(samples);
      assert curve[0] in multiset(curve);
    }
    PpfUnfolds(samples);
    var m := MinNonzero(samples).value;
    assert 0.0 < m by {
      var i :| 0 <= i < |samples| && samples[i] == m;
    }
    ValidatedCurveOrdered(samples);
    CurveWithinData(TopClampedProbs(|samples|), samples);
    assert forall k :: 0 <= k < GridSize ==> 0.0 <= curve[k] by {
      var i :| 0 <= i < |samples| && samples[i] == Sort(samples)[0];
    }
    OverwriteLastZero(curve, GetEmpiricalPpf(samples).value.cost);
  }

  /** Percentile 0 lies left of the first knot, so the curve starts at the
      smallest sample, which is zero when the samples are non-negative and
      include a zero. */
  lemma CurveStartsAtMinimum(samples: seq<real>)
    requires 0 < |samples|
    requires forall i :: 0 <= i < |samples| ==> 0.0 <= samples[i]
    requires exists i :: 0 <= i < |samples| && samples[i] == 0.0
    ensures Curve(TopClampedProbs(|samples|), Sort(samples))[0] == 0.0
  {
    var n := |samples|;
    var xp := TopClampedProbs(n);
    assert 0.0 < xp[0] <= xp[n - 1] by {
      if n > 1 {
        ShareBounds(0, n);
        FirstShareSmall(n);
      }
    }
    CurveAtZero(xp, Sort(samples));
    SortStartsAtZero(samples);
  }

  /** With two or more values the first holds at most half of them. */
  lemma FirstShareSmall(n: nat)
    requires n >= 2
    ensures Share(0, n) <= 0.5
  {
    var x := n as real;
    DivideMono(1.0, 0.5 * x, x);
    assert 0.5 * x / x == 0.5;
  }

  /** Percentile 0 lies left of positive knots, where `np.interp` returns
      the first value. */
  lemma CurveAtZero(xp: seq<real>, sorted: seq<real>)
    requires |xp| == |sorted| > 0 && 0.0 < xp[0] <= xp[|xp| - 1]
    ensures Curve(xp, sorted)[0] == sorted[0]
  {
    assert Grid()[0] == 0.0;
  }

  /** Sorted non-negative samples that include a zero start with it. */
  lemma SortStartsAtZero(samples: seq<real>)
    requires forall i :: 0 <= i < |samples| ==> 0.0 <= samples[i]
    requires exists i :: 0 <= i < |samples| && samples[i] == 0.0
    ensures Sort(samples)[0] == 0.0
  {
    SortedStartsAtZero(Sort(samples), samples);
  }

  lemma SortedStartsAtZero(s: seq<real>, samples: seq<real>)
    requires Sorted(s) && multiset(s) == multiset(samples)
    requires forall i :: 0 <= i < |samples| ==> 0.0 <= samples[i]
    requires exists i :: 0 <= i < |samples| && samples[i] == 0.0
    ensures |s| > 0 && s[0] == 0.0
  {
    var z :| 0 <= z < |samples| && samples[z] == 0.0;
    assert samples[z] in multiset(s);
    assert s[0] in multiset(samples);
    var m :| 0 <= m < |samples| && samples[m] == s[0];
    var k :| 0 <= k < |s| && s[k] == samples[z];
  }

  /** Writing a positive value over the last zero of a non-decreasing,
      non-negative curve leaves zeros exactly below that entry. */
  lemma OverwriteLastZero(curve: seq<real>, cost: seq<real>)
    requires |curve| == GridSize && Sorted(curve)
    requires forall k :: 0 <= k < GridSize ==> 0.0 <= curve[k]
    requires multiset(curve)[0.0] > 0 && |cost| == GridSize
    requires 0.0 < cost[LowerBoundIndex(curve)]
    requires forall k :: 0 <= k < GridSize && k != LowerBoundIndex(curve) ==> cost[k] == curve[k]
    ensures forall k :: 0 <= k < GridSize ==> (cost[k] == 0.0 <==> k < LowerBoundIndex(curve))
  {
    ZerosLead(curve);
  }

  /** When every sample is positive the curve has no zero, so the lower bound
      lands on the last entry: the cost at percentile 1.00 becomes the
      smallest sample rather than the largest. */
  lemma PositiveSamplesOverwriteTop(samples: seq<real>)
    requires |samples| > 0
    requires forall i :: 0 <= i < |samples| ==> 0.0 < samples[i]
    ensures GetEmpiricalPpf(samples).Ok?
    ensures var cost := GetEmpiricalPpf(samples).value.cost;
      && cost[GridSize - 1] == Sort(samples)[0]
      && forall k :: 0 <= k < GridSize - 1 ==>
           cost[k] == Curve(TopClampedProbs(|samples|), Sort(samples))[k]
  {
    assert samples[0] != 0.0;
    PpfUnfolds(samples);
    var curve := Curve(TopClampedProbs(|samples|), Sort(samples));
    CurveWithinData(TopClampedProbs(|samples|), samples);
    assert 0.0 < Sort(samples)[0] by {
      var i :| 0 <= i < |samples| && samples[i] == Sort(samples)[0];
    }
    assert 0.0 !in multiset(curve);
    var m := MinNonzero(samples).value;
    assert m <= Sort(samples)[0];
    assert Sort(samples)[0] <= m;
  }

  /** Looking up any grid percentile returns that entry of the PPF, rounded
      to cents. */
  lemma GetPValueAtGrid(data: seq<real>, k: nat)
    requires k < GridSize && exists i :: 0 <= i < |data| && data[i] != 0.0
    ensures GetEmpiricalPpf(data).Ok?
    ensures GetPValue(data, k as real / 100.0) == Ok(RoundCents(GetEmpiricalPpf(data).value.cost[k]))
  {
    GridIndexAt(k);
  }

  /** The search for percentile `k / 100` finds position `k`. */
  lemma GridIndexAt(k: nat)
    requires k < GridSize
    ensures GridIndex(k as real / 100.0, 0) == Some(k)
  {
    var pv := k as real / 100.0;
    assert Grid()[k] == pv;
    var j := GridIndex(pv, 0);
    assert Grid()[j.value] == Grid()[k];
  }

  /** A probability off the grid, such as 0.333, is not found. */
  lemma GetPValueOffGrid(data: seq<real>)
    requires exists i :: 0 <= i < |data| && data[i] != 0.0
    ensures GetPValue(data, 0.333) == Err(IndexOutOfRange)
  {
    forall k | 0 <= k < GridSize
      ensures Grid()[k] != 0.333
    {
      if k <= 33 {
        assert Grid()[k] <= 0.33;
      } else {
        assert Grid()[k] >= 0.34;
      }
    }
  }

  /** Each risk's vector holds exactly `floor(ITERATIONS * p)` nonzero
      entries when no draw is zero. */
  lemma SamplesZeroCount(d: Triangular, p: Scalar, draws: seq<real>, choices: seq<int>)
    requires |draws| == Iterations && ValidChoices(choices, Iterations)
    requires GetSamples(d, p, draws, choices).Ok?
    requires forall i :: 0 <= i < |draws| ==> draws[i] != 0.0
    ensures var v := GetSamples(d, p, draws, choices).value;
      && multiset(v)[0.0] == Iterations - Occurrences(p.x)
      && |NonZero(v)| == Occurrences(p.x)
  {
    var k := Occurrences(p.x);
    assert 0.0 !in multiset(draws[..k]);
  }

  /** Summing the same vectors in another order gives the same outcome:
      the same warning and the same total. */
  lemma SumSamplesOrderIrrelevant(sets: seq<seq<real>>, others: seq<seq<real>>)
    requires |sets| > 0 && AllLength(sets, |sets[0]|)
    requires multiset(sets) == multiset(others)
    ensures SumSamples(others) == SumSamples(sets)
  {
    AddReduceOrderIrrelevant(sets, others);
    assert (exists j :: 0 <= j < |sets| && |sets[j]| != Iterations)
      <==> (exists j :: 0 <= j < |others| && |others[j]| != Iterations) by {
      if exists j :: 0 <= j < |sets| && |sets[j]| != Iterations {
        var j :| 0 <= j < |sets| && |sets[j]| != Iterations;
        assert sets[j] in multiset(others);
      }
      if exists j :: 0 <= j < |others| && |others[j]| != Iterations {
        var j :| 0 <= j < |others| && |others[j]| != Iterations;
        assert others[j] in multiset(sets);
      }
    }
  }
}

=== FILE: results.dfy ===
/** Outcomes of the engine's operations: a value, or the exception Python raises. */
module Results {

  /** The exceptions the engine raises, named by their cause. The Python class
      each one surfaces as is given in the comment. */
  datatype Error =
    | NonNumeric                                   // TypeError from an isinstance check or arithmetic
    | ModeOutOfRange(value: real, lo: real, hi: real) // ValueError: mode outside [lo, hi]
    | ProbabilityOutOfRange(p: real)               // ValueError: probability outside [0, 1]
    | LengthMismatch(index: nat)                   // ValueError: vector `index` differs from vector 0
    | RaggedVectors                                // ValueError: numpy cannot stack unequal vectors
    | InvalidShape                                 // ValueError: scipy refuses the distribution's parameters
    | NegativeSize                                 // ValueError: a negative number of draws was requested
    | BroadcastMismatch                            // ValueError: more draws than slots in the vector
    | ZeroDivision                                 // ZeroDivisionError
    | EmptyMinimum                                 // ValueError: minimum of an empty selection
    | IndexOutOfRange                              // IndexError
    | NotANumber                                   // no exception: numpy yields NaN (0/0)

  datatype Result<+T> = Ok(value: T) | Err(error: Error) {

    predicate IsFailure() {
      Err?
    }

    function PropagateFailure<U>(): Result<U>
      requires Err?
    {
      Err(error)
    }

    function Extract(): T
      requires Ok?
    {
      value
    }
  }

  datatype Option<+T> = None | Some(value: T)

  /** The values of the outcomes before the first failure, and that
      failure if there is one: a loop that stops at the first exception. */
  function Collect<T>(rs: seq<Result<T>>): (out: (seq<T>, Option<Error>))
    ensures |out.0| <= |rs|
    ensures forall i :: 0 <= i < |out.0| ==> rs[i] == Ok(out.0[i])
    ensures out.1.None? ==> |out.0| == |rs|
    ensures out.1.Some? ==> |out.0| < |rs| && rs[|out.0|] == Err(out.1.value)
  {
    if |rs| == 0 then ([], None)
    else
      match rs[0]
      case Err(e) => ([], Some(e))
      case Ok(v) =>
        var rest := Collect(rs[1..]);
        ([v] + rest.0, rest.1)
  }
}

=== FILE: risks.dfy ===
/** The inputs of a run: the risks a caller supplies, the values Python
    passes around for them, the triangular distribution built from a cost
    triple, and the random draws and shuffle choices that stand in for
    scipy's and numpy's random generators. */
module Risks {
  import opened Config
  import opened Shuffle

  /** A Python argument: an `int` or `float` (as an exact real), or any other
      object. */
  datatype Scalar = Number(x: real) | Other

  /** A risk record: `{"costs": (minimum, most_likely, maximum),
      "probability": p}`, with its name from the enclosing dict. */
  datatype Risk = Risk(name: string, costs: (Scalar, Scalar, Scalar), probability: Scalar)

  /** The random inputs one risk consumes: the values `distribution.rvs`
      returns, in order (a call for `k` draws gets the first `k`), and the
      choices `np.random.shuffle` makes. */
  datatype Randomness = Randomness(draws: seq<real>, choices: seq<int>)

  ghost predicate ValidRandomness(r: Randomness) {
    |r.draws| == Iterations && ValidChoices(r.choices, Iterations)
  }

  /** The parameters `stats.triang(c=shape, loc=loc, scale=scale)` is frozen
      with. */
  datatype Triangular = Triangular(shape: real, loc: real, scale: real)

  /** scipy draws from `triang` only when the shape lies in [0, 1] and the
      scale is not negative; otherwise `rvs` raises a domain error. */
  predicate Drawable(d: Triangular) {
    0.0 <= d.shape <= 1.0 && 0.0 <= d.scale
  }

  /** A triangular distribution with support [loc, loc + scale] and mode
      loc + shape * scale has support [lo, hi] and mode `mode`. */
  ghost predicate Describes(d: Triangular, lo: real, hi: real, mode: real) {
    d.loc == lo && d.loc + d.scale == hi && d.loc + d.shape * d.scale == mode
  }

  /** Python's `int()` on a number: truncation toward zero. */
  function Trunc(x: real): (t: int)
    ensures 0.0 <= x ==> t >= 0 && t as real <= x < t as real + 1.0
    ensures x < 0.0 ==> t <= 0 && t as real - 1.0 < x <= t as real
  {
    if x >= 0.0 then x.Floor else -((-x).Floor)
  }

  /** `int(ITERATIONS * p)`: the number of slots that hold a draw. */
  function Occurrences(p: real): int {
    Trunc(Iterations as real * p)
  }

  function Zeros(n: nat): (z: seq<real>)
    ensures |z| == n && multiset(z)[0.0] == n
  {
    ZerosMultiset(n);
    seq(n, _ => 0.0)
  }

  lemma {:induction false} ZerosMultiset(n: nat)
    ensures multiset(seq(n, _ => 0.0)) == multiset{}[0.0 := n]
  {
    if n > 0 {
      assert seq(n, _ => 0.0) == seq(n - 1, _ => 0.0) + [0.0];
      ZerosMultiset(n - 1);
    }
  }

  /** `samples = np.zeros(ITERATIONS); samples[0:k] = distribution.rvs(k)`:
      the first `k` draws followed by zeros. */
  function ZeroInflated(draws: seq<real>, k: nat): (v: seq<real>)
    requires k <= Iterations <= |draws|
    ensures |v| == Iterations
    ensures forall i :: 0 <= i < k ==> v[i] == draws[i]
    ensures forall i :: k <= i < Iterations ==> v[i] == 0.0
    ensures multiset(v) == multiset(draws[..k]) + multiset(Zeros(Iterations - k))
  {
    var v := draws[..k] + Zeros(Iterations - k);
    v
  }
}

=== FILE: scenarios.dfy ===
/** Concrete runs of the engine on the inputs its test suite and docstrings
    use, worked out from the model. */
module Scenarios {
  import opened Config
  import opened Results
  import opened Sorting
  import opened Interpolation
  import opened Shuffle
  import opened Empirical
  import opened Risks
  import Quantitative
  import Probability

  /** Bounds 1 and 3 with mode 2 give shape 0.5, loc 1 and scale 2. */
  lemma TriangularOfOneTwoThree()
    ensures Probability.GetTriangularDistribution(Number(1.0), Number(3.0), Number(2.0))
      == Ok(Triangular(0.5, 1.0, 2.0))
  {
  }

  /** With probability 0.5 and no zero draw, half of the 100000 slots are
      zero. */
  lemma HalfTheSlotsAreZero(d: Triangular, draws: seq<real>, choices: seq<int>)
    requires |draws| == Iterations && ValidChoices(choices, Iterations)
    requires Drawable(d)
    requires forall i :: 0 <= i < |draws| ==> draws[i] != 0.0
    ensures Probability.GetSamples(d, Number(0.5), draws, choices).Ok?
    ensures var v := Probability.GetSamples(d, Number(0.5), draws, choices).value;
      |v| == Iterations && multiset(v)[0.0] == 50000
  {
    Probability.SamplesAgree(d, Number(0.5), draws, choices);
    Quantitative.SamplesZeroCount(d, Number(0.5), draws, choices);
  }

  /** `[1, 2, 3] + [4, 5, 6]` sums to `[5, 7, 9]`. The validated version
      computes the same sum and, as the vectors are not 100000 long, warns
      without failing. */
  lemma SumOfTwoTriples()
    ensures Probability.SumSamples([[1.0, 2.0, 3.0], [4.0, 5.0, 6.0]])
      == Ok(Probability.Vector([5.0, 7.0, 9.0]))
    ensures Quantitative.SumSamples([[1.0, 2.0, 3.0], [4.0, 5.0, 6.0]])
      == Quantitative.Summed(true, Ok([5.0, 7.0, 9.0]))
  {
    var sets := [[1.0, 2.0, 3.0], [4.0, 5.0, 6.0]];
    var r := Quantitative.SumSamples(sets).total;
    assert r.Ok?;
    assert r.value[0] == 5.0 && r.value[1] == 7.0 && r.value[2] == 9.0;
    assert r.value == [5.0, 7.0, 9.0];
    assert |sets[0]| != Iterations;
    Probability.SumSamplesAgree(sets);
  }

  /** Lengths 1, 1, 2: the validated sum names position 2. */
  lemma ThirdVectorTooLong()
    ensures Quantitative.SumSamples([[1.0], [2.0], [3.0, 4.0]]).total == Err(LengthMismatch(2))
    ensures Probability.SumSamples([[1.0], [2.0], [3.0, 4.0]]) == Err(RaggedVectors)
  {
    var sets := [[1.0], [2.0], [3.0, 4.0]];
    assert |sets[2]| != |sets[0]|;
  }

  /** The empirical CDF of `[1, 2, 3, 4]` keeps the order and assigns
      0.25, 0.5, 0.75, 1. */
  lemma CdfOfFour()
    ensures EmpiricalCdf([1.0, 2.0, 3.0, 4.0]) == CdfData([1.0, 2.0, 3.0, 4.0], [0.25, 0.5, 0.75, 1.0])
  {
    var data := [1.0, 2.0, 3.0, 4.0];
    assert Sorted(data);
    SortedPermutationUnique(Sort(data), data);
    SharesOfFour();
  }

  lemma SharesOfFour()
    ensures Shares(4) == [0.25, 0.5, 0.75, 1.0]
  {
    var p := Shares(4);
    assert p[0] == Share(0, 4) == 0.25;
    assert p[1] == Share(1, 4) == 0.5;
    assert p[2] == Share(2, 4) == 0.75;
  }

  /** With no risks the unvalidated runner returns the scalar 0.0, while the
      validated one fails reading the first vector. */
  lemma NoRisks()
    ensures Probability.GetAggregateData([], []).total == Ok(Probability.Scalar(0.0))
    ensures Quantitative.GetAggregateData([], []).total == Err(IndexOutOfRange)
  {
  }

  /** The five costs 1000, 2000, 3000, 4000, 5000 in order. */
  ghost predicate FiveCostsData(data: seq<real>) {
    && |data| == 5 && data[0] == 1000.0 && data[1] == 2000.0 && data[2] == 3000.0
    && data[3] == 4000.0 && data[4] == 5000.0
  }

  /** The docstring's five costs 1000, ..., 5000: the cost at percentile 0.5
      is 2500 (interpolated between knots 0.4 and 0.6), and as no cost is
      zero the lower bound 1000 is written over percentile 1.00. */
  lemma FiveCosts(data: seq<real>)
    requires FiveCostsData(data)
    ensures Quantitative.GetPValue(data, 0.5) == Ok(2500.0)
    ensures Quantitative.GetPValue(data, 1.0) == Ok(1000.0)
  {
    FivePpf(data);
    Quantitative.GetPValueAtGrid(data, 50);
    Quantitative.GetPValueAtGrid(data, 100);
    Quantitative.RoundCentsKeepsCents(2500.0);
    Quantitative.RoundCentsKeepsCents(1000.0);
  }

  /** A third of 1000 rounds to 333.33, and 0.125 is a tie that goes to the
      even count of cents, 0.12. */
  lemma RoundingExamples()
    ensures Quantitative.RoundCents(1000.0 / 3.0) == 333.33
    ensures Quantitative.RoundCents(0.125) == 0.12
  {
    Quantitative.RoundNearest(100000.0 / 3.0, 33333);
  }

  lemma FivePpf(data: seq<real>)
    requires FiveCostsData(data)
    ensures Quantitative.GetEmpiricalPpf(data).Ok?
    ensures var cost := Quantitative.GetEmpiricalPpf(data).value.cost;
      cost[50] == 2500.0 && cost[100] == 1000.0
  {
    assert Sorted(data);
    SortedPermutationUnique(Sort(data), data);
    Quantitative.PositiveSamplesOverwriteTop(data);
    var xp := Quantitative.TopClampedProbs(5);
    KnotsOfFive();
    InterpAtHalf(xp, data);
    assert Grid()[50] == 0.5;
  }

  lemma KnotsOfFive()
    ensures Quantitative.TopClampedProbs(5) == [0.2, 0.4, 0.6, 0.8, 0.999]
  {
    var xp := Quantitative.TopClampedProbs(5);
    assert xp[0] == Share(0, 5) == 0.2;
    assert xp[1] == Share(1, 5) == 0.4;
    assert xp[2] == Share(2, 5) == 0.6;
    assert xp[3] == Share(3, 5) == 0.8;
  }

  lemma InterpAtHalf(xp: seq<real>, data: seq<real>)
    requires xp == [0.2, 0.4, 0.6, 0.8, 0.999] && FiveCostsData(data)
    ensures Interp(0.5, xp, data) == 2500.0
  {
    assert Bracket(0.5, xp, 0) == 1;
  }
}

=== FILE: shuffle.dfy ===
/** In-place random permutation of a vector, as `np.random.shuffle` performs
    it (Fisher-Yates from the last position down). The random choices are
    passed in. */
module Shuffle {

  /** `js[i - 1]` is the position, drawn from [0, i], that position `i` is
      exchanged with at step `i`; there is one step for each `i` from
      `n - 1` down to 1. */
  ghost predicate ValidChoices(js: seq<int>, n: nat) {
    && |js| == (if n == 0 then 0 else n - 1)
    && forall k :: 0 <= k < |js| ==> 0 <= js[k] <= k + 1
  }

  /** Exchanges the entries at `i` and `j`. */
  function Swap(s: seq<real>, i: nat, j: nat): (r: seq<real>)
    requires i < |s| && j < |s|
    ensures |r| == |s|
    ensures multiset(r) == multiset(s)
    ensures r[i] == s[j] && r[j] == s[i]
    ensures forall k :: 0 <= k < |s| && k != i && k != j ==> r[k] == s[k]
  {
    s[i := s[j]][j := s[i]]
  }

  /** Steps `i`, `i - 1`, ..., 1 of the shuffle. */
  function Steps(s: seq<real>, js: seq<int>, i: nat): (r: seq<real>)
    requires ValidChoices(js, |s|) && i <= |js|
    ensures |r| == |s|
    ensures multiset(r) == multiset(s)
    decreases i
  {
    if i == 0 then s
    else Steps(Swap(s, i, js[i - 1]), js, i - 1)
  }

  /** The shuffled vector: a rearrangement of the input. */
  function Shuffled(s: seq<real>, js: seq<int>): (r: seq<real>)
    requires ValidChoices(js, |s|)
    ensures |r| == |s|
    ensures multiset(r) == multiset(s)
  {
    Steps(s, js, |js|)
  }
}

=== FILE: sorting.dfy ===
/** Ascending sort of a sample vector, as `np.sort` computes it. */
module Sorting {

  ghost predicate Sorted(s: seq<real>) {
    forall i, j :: 0 <= i <= j < |s| ==> s[i] <= s[j]
  }

  /** A head no larger than every entry of a sorted tail keeps it sorted. */
  lemma ConsSorted(h: real, t: seq<real>)
    requires Sorted(t)
    requires forall j :: 0 <= j < |t| ==> h <= t[j]
    ensures Sorted([h] + t)
  {
    var r := [h] + t;
    forall i, j | 0 <= i <= j < |r|
      ensures r[i] <= r[j]
    {
      if i > 0 {
        assert r[i] == t[i - 1] && r[j] == t[j - 1];
      } else if j > 0 {
        assert r[j] == t[j - 1];
      }
    }
  }

  lemma TailSorted(s: seq<real>)
    requires Sorted(s) && |s| > 0
    ensures Sorted(s[1..])
  {
    forall i, j | 0 <= i <= j < |s| - 1
      ensures s[1..][i] <= s[1..][j]
    {
      assert s[1..][i] == s[i + 1] && s[1..][j] == s[j + 1];
    }
  }

  /** Places `x` into the sorted sequence `s`. */
  function Insert(x: real, s: seq<real>): (r: seq<real>)
    requires Sorted(s)
    ensures |r| == |s| + 1
    ensures Sorted(r)
    ensures multiset(r) == multiset(s) + multiset{x}
  {
    if |s| == 0 then [x]
    else if x <= s[0] then
      ConsSorted(x, s);
      [x] + s
    else
      assert s == [s[0]] + s[1..];
      TailSorted(s);
      var rest := Insert(x, s[1..]);
      InsertAboveHead(x, s, rest);
      ConsSorted(s[0], rest);
      [s[0]] + rest
  }

  /** Every entry of `s[1..]` with `x` added is at least the head of the
      sorted `s` when `x` is. */
  lemma InsertAboveHead(x: real, s: seq<real>, rest: seq<real>)
    requires Sorted(s) && |s| > 0 && s[0] < x
    requires multiset(rest) == multiset(s[1..]) + multiset{x}
    ensures forall j :: 0 <= j < |rest| ==> s[0] <= rest[j]
  {
    forall j | 0 <= j < |rest|
      ensures s[0] <= rest[j]
    {
      assert rest[j] in multiset(rest);
      if rest[j] != x {
        assert rest[j] in multiset(s[1..]);
        var k :| 0 <= k < |s[1..]| && s[1..][k] == rest[j];
        assert s[k + 1] == rest[j];
      }
    }
  }

  /** The sorted rearrangement of `s`. */
  function Sort(s: seq<real>): (r: seq<real>)
    ensures |r| == |s|
    ensures Sorted(r)
    ensures multiset(r) == multiset(s)
  {
    if |s| == 0 then []
    else
      assert s == [s[0]] + s[1..];
      Insert(s[0], Sort(s[1..]))
  }

  /** There is only one sorted arrangement of a multiset, so `Sort` returns
      THE sorted permutation of its input. */
  lemma {:induction false} SortedPermutationUnique(a: seq<real>, b: seq<real>)
    requires Sorted(a) && Sorted(b)
    requires multiset(a) == multiset(b)
    ensures a == b
  {
    if |a| == 0 {
      assert |multiset(b)| == 0;
    } else {
      assert |b| == |multiset(b)| == |a|;
      assert a[0] in multiset(b) && b[0] in multiset(a);
      assert a[0] == b[0];
      assert a == [a[0]] + a[1..];
      assert b == [b[0]] + b[1..];
      assert multiset(a[1..]) == multiset(a) - multiset{a[0]};
      assert multiset(b[1..]) == multiset(b) - multiset{b[0]};
      TailSorted(a);
      TailSorted(b);
      SortedPermutationUnique(a[1..], b[1..]);
    }
  }

  /** Sorting any rearrangement of the data gives the same vector. */
  lemma SortIgnoresOrder(s: seq<real>, t: seq<real>)
    requires multiset(s) == multiset(t)
    ensures Sort(s) == Sort(t)
  {
    SortedPermutationUnique(Sort(s), Sort(t));
  }

  /** The first entry of a sorted permutation is the minimum of the data,
      the last entry the maximum. */
  lemma SortedEnds(s: seq<real>, data: seq<real>)
    requires Sorted(s) && multiset(s) == multiset(data) && |data| > 0
    ensures s[0] in data && s[|s| - 1] in data
    ensures forall v :: v in data ==> s[0] <= v <= s[|s| - 1]
  {
    assert |s| == |multiset(s)| == |data|;
    assert s[0] in multiset(s) && s[|s| - 1] in multiset(s);
    forall v | v in data
      ensures s[0] <= v <= s[|s| - 1]
    {
      assert v in multiset(s);
    }
  }
}

=== FILE: vectors.dfy ===
/** Element-wise arithmetic on sample vectors, as numpy performs it. */
module Vectors {

  /** Entry `i` of `v`, read as 0 past its end (only ever read in range when
      vectors share a length). */
  function At(v: seq<real>, i: nat): real {
    if i < |v| then v[i] else 0.0
  }

  /** The sum of a sequence of reals. */
  function Sum(s: seq<real>): real {
    if |s| == 0 then 0.0 else s[0] + Sum(s[1..])
  }

  /** Column `i` of a stack of vectors, summed: the reference definition of
      an element-wise total. */
  function ColumnSum(vs: seq<seq<real>>, i: nat): real {
    if |vs| == 0 then 0.0 else At(vs[0], i) + ColumnSum(vs[1..], i)
  }

  ghost predicate AllLength(vs: seq<seq<real>>, n: nat) {
    forall j :: 0 <= j < |vs| ==> |vs[j]| == n
  }

  /** Element-wise sum of two vectors of one length (numpy's `+`). */
  function Add(u: seq<real>, v: seq<real>): (w: seq<real>)
    requires |u| == |v|
    ensures |w| == |u|
    ensures forall i :: 0 <= i < |w| ==> w[i] == u[i] + v[i]
  {
    seq(|u|, i requires 0 <= i < |u| => u[i] + v[i])
  }

  lemma {:induction false} ColumnSumAppend(a: seq<seq<real>>, b: seq<seq<real>>, i: nat)
    ensures ColumnSum(a + b, i) == ColumnSum(a, i) + ColumnSum(b, i)
    decreases |a|
  {
    if |a| > 0 {
      assert (a + b)[1..] == a[1..] + b;
      ColumnSumAppend(a[1..], b, i);
    } else {
      assert a + b == b;
    }
  }

  /** Adding one more vector adds its entry to every column sum. */
  lemma ColumnSumSnoc(vs: seq<seq<real>>, v: seq<real>)
    ensures forall i: nat :: ColumnSum(vs + [v], i) == ColumnSum(vs, i) + At(v, i)
  {
    forall i: nat
      ensures ColumnSum(vs + [v], i) == ColumnSum(vs, i) + At(v, i)
    {
      ColumnSumAppend(vs, [v], i);
    }
  }

  /** `np.add.reduce(vs)` over axis 0: the vectors folded together from the
      left. Entry `i` of the result is the sum of column `i`. */
  function AddReduce(vs: seq<seq<real>>): (r: seq<real>)
    requires |vs| > 0 && AllLength(vs, |vs[0]|)
    ensures |r| == |vs[0]|
    ensures forall i :: 0 <= i < |r| ==> r[i] == ColumnSum(vs, i)
  {
    if |vs| == 1 then
      vs[0]
    else
      var m := |vs| - 1;
      assert vs == vs[..m] + [vs[m]];
      ColumnSumSnoc(vs[..m], vs[m]);
      Add(AddReduce(vs[..m]), vs[m])
  }

  /** Removing the vector at `k` removes its entry from every column sum. */
  lemma ColumnSumRemove(t: seq<seq<real>>, k: nat, i: nat)
    requires k < |t|
    ensures ColumnSum(t, i) == At(t[k], i) + ColumnSum(t[..k] + t[k + 1..], i)
  {
    assert t == t[..k] + ([t[k]] + t[k + 1..]);
    ColumnSumAppend(t[..k], [t[k]] + t[k + 1..], i);
    ColumnSumAppend(t[..k], t[k + 1..], i);
  }

  lemma RemoveOne<T>(t: seq<T>, k: nat)
    requires k < |t|
    ensures multiset(t[..k] + t[k + 1..]) == multiset(t) - multiset{t[k]}
  {
    assert t == t[..k] + [t[k]] + t[k + 1..];
  }

  /** Column sums do not depend on the order of the vectors. */
  lemma {:induction false} ColumnSumPermutation(s: seq<seq<real>>, t: seq<seq<real>>, i: nat)
    requires multiset(s) == multiset(t)
    ensures ColumnSum(s, i) == ColumnSum(t, i)
    decreases |s|
  {
    if |s| == 0 {
      assert |t| == |multiset(t)| == 0;
    } else {
      var x := s[0];
      assert x in multiset(t);
      var k :| 0 <= k < |t| && t[k] == x;
      var rest := t[..k] + t[k + 1..];
      PermutationTail(s, t, k);
      ColumnSumPermutation(s[1..], rest, i);
      ColumnSumRemove(t, k, i);
    }
  }

  /** Taking the head of `s` and its copy in `t` off both permutations
      leaves permutations. */
  lemma PermutationTail<T>(s: seq<T>, t: seq<T>, k: nat)
    requires multiset(s) == multiset(t) && |s| > 0 && k < |t| && t[k] == s[0]
    ensures multiset(s[1..]) == multiset(t[..k] + t[k + 1..])
  {
    RemoveOne(t, k);
    assert s == [s[0]] + s[1..];
    assert multiset(s) == multiset{s[0]} + multiset(s[1..]);
  }

  /** Summing the same vectors in another order gives the same total. */
  lemma AddReduceOrderIrrelevant(vs: seq<seq<real>>, ws: seq<seq<real>>)
    requires |vs| > 0 && AllLength(vs, |vs[0]|)
    requires multiset(vs) == multiset(ws)
    ensures |ws| > 0 && AllLength(ws, |vs[0]|)
    ensures AddReduce(vs) == AddReduce(ws)
  {
    assert |ws| == |multiset(ws)| == |vs|;
    forall j | 0 <= j < |ws|
      ensures |ws[j]| == |vs[0]|
    {
      assert ws[j] in multiset(vs);
    }
    var r, q := AddReduce(vs), AddReduce(ws);
    forall i | 0 <= i < |r|
      ensures r[i] == q[i]
    {
      ColumnSumPermutation(vs, ws, i);
    }
  }
}
